=== FILE: README.md ===
# moxy: the MQTT relay core in Dafny

moxy is a small MQTT proxy. For every client it accepts, it opens a connection to a broker
and runs two relay loops: one copies the client's bytes to the broker, the other copies the
broker's bytes back. Each loop cuts its byte stream into MQTT control packets before
forwarding them. It reads one fixed-header byte, then the "Remaining Length" field, then
exactly that many payload bytes; the field is base-128, least significant digit first, with
bit 7 of each byte as a continuation flag (section 2.2.3 of MQTT 3.1.1). Every packet goes
to a console dumper before it is written. The dumper names the packet type (section 2.2.1)
and, for a CONNECT, decodes the variable header and payload (sections 3.1.2 and 3.1.3, with
the length-prefixed strings of section 1.5.3). The broker-to-client loop may also hand
each packet to a trace recorder.

The model covers:

- the relay loop of `server/server.go`, which recovers from panics;
- the older loop of `main.go`, which crashes on any read error, a clean end of stream
  included;
- the CONNECT decoder of `server/server.go`, and the message-type decoder both files share.

A stream is a `Source`: the bytes the peer sends, then how the stream ends (`Eof` or some
other I/O error). The relay loop exists twice:

- `ServerRelay.Relay`, a recursive function that consumes the stream packet by packet;
- `Proxify.ProxifyStream`, a method with the source's two nested loops, proved to write
  exactly what `Relay` forwards.

The dumper is a parameter of the loop, as in the source. A panic is a value: `Result`
carries it out of the decoders, and `Exit` says how a loop ended:

- `Stopped`: a clean end of stream;
- `Recovered`: a panic caught by the deferred handler;
- `Crashed`: a panic nothing catches, as in `main.go`.

Each decoder has a partner it is proved against:

- the reader of the length field, against the canonical encoder `EncodeLength`;
- `decode_connect` and `decode_string`, against a client-side encoder (`ConnectEncoding`);
- the `main.go` loop, against the `server/server.go` loop.

Where the code departs from MQTT 3.1.1, or does something a reader may not expect, the model
follows the code:

- The length loop sets no limit on the number of bytes. A fifth length byte is read like
  the others, although MQTT 3.1.1 allows four (`RemainingLength.NoLimitOnLengthBytes`).
- A stream that ends cleanly in the middle of a packet ends the loop without a panic. A
  short payload is dropped (`ServerRelay.ShortPayloadDropped`).
- When the clean end comes inside the length field, the bytes read so far are kept. A
  field that adds up to 0 is forwarded with an empty payload
  (`ServerRelay.EofInLengthField`). Any other field is dropped
  (`ServerRelay.EofInNonzeroField`).
- A CONNECT string whose prefix announces more bytes than remain comes back short, without
  a panic (`ConnectEncoding.TruncatedString`).
- Flags `0xC4` have bit 6 set, so the password is decoded too, along with the will and the
  user name (`ConnectEncoding.AllOptionalScenario`).
- The trace recorder is attached to the broker-to-client ("RCVD") loop (`Session.Serve`).
- When the dumper's CONNECT decoding panics, the deferred handler ends the loop: that
  packet and everything after it are lost (`Session.EmptyConnectStopsSession`). The
  dumper of `main.go` only names the type, so the older loop forwards the same packet
  (`LegacyRelay.LegacyForwardsWhatServerDrops`).

## Model

| member | source | states |
|---|---|---|
| RemainingLength.ReadLength | server/server.go:116-133 | the length loop never reports more bytes than the stream holds, and it fails only with a non-EOF read error |
| RemainingLength.ReadLengthShape | server/server.go:116-133 | the loop fails exactly when the stream ends with a non-EOF error before a byte with bit 7 clear; otherwise it stops right after the first such byte, or at a clean end of stream having read only continuation bytes |
| RemainingLength.ReadLengthValue | server/server.go:117-129 | the accumulated length is the base-128 value of the bytes consumed, sum of (b_i & 127)·128^i, scaled by the starting multiplier |
| RemainingLength.ReadField | server/server.go:116-133 | a complete field followed by anything is read to its last byte and no further, and its value comes back |
| RemainingLength.ReadUnfinishedField | server/server.go:121-124 | a clean end of stream inside the field keeps every byte read and the value they add up to |
| RemainingLength.FieldPrefixUnique | server/server.go:130-132 | since the loop stops at the first byte with bit 7 clear, no complete field is a proper prefix of another |
| RemainingLength.EncodeLength | server/server.go:117-133 | the canonical encoding of n, the partner of the reader, is a complete field whose value is n |
| RemainingLength.LengthRoundTrip | server/server.go:116-133 | the reader consumes exactly the encoding of n, whatever follows it, and returns n |
| RemainingLength.ByteArith | server/server.go:128-130 | `b & 127` is b mod 128 and `b & 128 != 0` holds exactly when b >= 128 |
| RemainingLength.EncodeLengthSize | server/server.go:117-133 | the canonical encoding of a length takes at most k bytes exactly when the length is below 128^k |
| RemainingLength.LengthValueBound | server/server.go:117-133 | any field of k bytes the loop reads, canonical or not, carries less than 128^k |
| RemainingLength.EncodeLengthShortest | server/server.go:117-133 | the canonical encoding is never longer than any complete field with the same value, so it uses the fewest bytes |
| RemainingLength.FourBytesMax | server/server.go:117-133 | no field of four bytes or fewer carries more than 268,435,455 |
| RemainingLength.MaximumFourByteLength | server/server.go:117-133 | the canonical encoding of 268,435,455 takes four bytes and that of 268,435,456 takes five |
| RemainingLength.WorkedExampleOneByte | server/server.go:117-133 | [0x00] reads as 0 and [0x7F] as 127, one byte each |
| RemainingLength.WorkedExampleTwoBytes | server/server.go:117-133 | [0x80, 0x01] reads as 128 |
| RemainingLength.WorkedExampleFourBytes | server/server.go:117-133 | [0xFF, 0xFF, 0xFF, 0x7F] reads as 268,435,455 |
| RemainingLength.NoLimitOnLengthBytes | server/server.go:120-133 | the loop has no byte cap: [0x80, 0x80, 0x80, 0x80, 0x01] reads as 268,435,456 from five bytes |
| MsgTypes.DecodeMsgType | server/server.go:226-229 | the type lies in 0..15 and is the header byte divided by 16 |
| MsgTypes.TypeName | server/server.go:195-210 | a type has a non-empty name exactly when it lies in 1..14; the reserved 0 and 15 look up the empty string |
| MsgTypes.HighNibbleOnly | server/server.go:226-229 | two headers have the same type exactly when their high nibbles agree |
| MsgTypes.HeaderRoundTrip | server/server.go:226-229 | a header built from a type below 16 and any flags nibble decodes back to that type |
| MsgTypes.NamesDistinct | server/server.go:195-210 | distinct named types have distinct names |
| MsgTypes.Examples | server/server.go:176-210 | 0x10 is CONNECT, 0x30 is PUBLISH, 0xE0 is DISCONNECT; 0x00 and 0xF0 have no name |
| Connect.MqttConnect.IsWillFlag | server/server.go:299-301 | the will flag is bit 2 of the connect flags: `flags & 0x04 > 0` holds exactly when (flags / 4) mod 2 is 1 |
| Connect.MqttConnect.IsUserFlag | server/server.go:303-305 | the user-name flag is bit 7: `flags & 0x80 > 0` holds exactly when flags >= 128 |
| Connect.MqttConnect.IsPasswordFlag | server/server.go:307-309 | the password flag is bit 6: `flags & 0x40 > 0` holds exactly when (flags / 64) mod 2 is 1 |
| Connect.GetByte | server/server.go:231-237 | a byte comes back exactly when the buffer is non-empty, with the rest of the buffer; an empty buffer panics |
| Connect.BigEndian16 | server/server.go:282 | the two prefix bytes are the high and low halves of a number below 65,536, so each byte can be read back from it |
| Connect.DecodeString | server/server.go:278-285 | the string succeeds exactly when two prefix bytes are there; prefix, string and rest make up the buffer; the string is at most the announced length, and it is shorter only when nothing is left after it |
| Connect.SkipLengthField | server/server.go:247-249 | the skip loop panics exactly when every byte has bit 7 set; otherwise it stops right after a complete length field |
| Connect.SkipField | server/server.go:247-249 | on a complete length field followed by anything, the skip loop leaves exactly what follows |
| Connect.DecodeConnect | server/server.go:239-276 | a failure is always the empty-buffer panic; the keep-alive fits 16 bits; each optional field whose flag is clear stays empty; the strings never hold more bytes than the packet |
| Connect.DecodeConnectBody | server/server.go:251-275 | the same guarantees for the fields after the length field |
| Connect.DecodeFixedFields | server/server.go:251-259 | protocol name, version, flags, keep-alive and client id are read, with every optional field empty and no byte counted twice |
| Connect.DecodeOptionalFields | server/server.go:261-273 | only the optional fields change, and each stays empty unless its flag is set |
| Connect.DecodeWill | server/server.go:261-266 | only the will topic and message change; a panic happens only when flag bit 2 is set |
| Connect.DecodeUsername | server/server.go:268-270 | only the user name changes; a panic happens only when flag bit 7 is set |
| Connect.DecodePassword | server/server.go:271-273 | only the password changes; a panic happens only when flag bit 6 is set |
| ConnectEncoding.EncodeString | server/server.go:278-285 | the partner of `decode_string`: the two-byte prefix announces the string's length, and the string follows it |
| ConnectEncoding.StringRoundTrip | server/server.go:278-285 | an encoded string followed by anything decodes to that string and leaves what follows |
| ConnectEncoding.TruncatedString | server/server.go:278-285 | a prefix announcing more bytes than remain yields just the remaining bytes, without error |
| ConnectEncoding.ConnectPacket | server/server.go:239-249 | a CONNECT laid out by a client is a well-formed packet of type CONNECT |
| ConnectEncoding.ConnectRoundTrip | server/server.go:239-276 | `decode_connect` gives back exactly the fields of any CONNECT a client lays out in wire order |
| ConnectEncoding.DecodeFramed | server/server.go:244-249 | skipping the header byte and a complete length field leaves exactly the payload for the field decoder |
| ConnectEncoding.BodyRoundTrip | server/server.go:251-273 | the fields after the length field decode back to the CONNECT they encode |
| ConnectEncoding.FixedRoundTrip | server/server.go:251-259 | the five fixed fields decode back, leaving exactly the optional fields' bytes |
| ConnectEncoding.KeepAliveRoundTrip | server/server.go:257 | `msb<<8 | lsb` of the two keep-alive bytes gives back any value below 65,536 |
| ConnectEncoding.OptionalRoundTrip | server/server.go:261-273 | the flag-gated fields decode back in the order will, user name, password |
| ConnectEncoding.WillRoundTrip | server/server.go:261-266 | with flag bit 2 the will topic and message come back, without it nothing is read |
| ConnectEncoding.UsernameRoundTrip | server/server.go:268-270 | with flag bit 7 the user name comes back, without it nothing is read |
| ConnectEncoding.PasswordRoundTrip | server/server.go:271-273 | with flag bit 6 the password comes back, without it nothing is read |
| ConnectEncoding.FlagExamples | server/server.go:299-309 | flags 0x02 gate in no optional field; flags 0xC4 gate in the will, the user name and the password |
| ConnectEncoding.CleanSessionScenario | server/server.go:239-276 | a concrete CONNECT with flags 0x02 decodes to name "MQTT", level 4, keep-alive 60, client id "dev1" and nothing else |
| ConnectEncoding.AllOptionalScenario | server/server.go:239-276 | a concrete CONNECT with flags 0xC4 decodes its will topic, will message, user name and password from the wire in that order |
| Dump.DumpMqttPdu | server/server.go:212-223 | the dump names the type of the first byte; it decodes a CONNECT and only a CONNECT, to exactly what `decode_connect` returns; it panics exactly when that decoding panics, or on an empty buffer |
| Dump.LegacyDumpMqttPdu | main.go:167-172 | the older dump reads only the first byte, decodes nothing, and panics only on an empty buffer |
| Dump.DumpsAgreeOffConnect | server/server.go:212-223 | on any packet that is not a CONNECT both dumpers report the same type and name and neither panics |
| Dump.EmptyConnectPanics | server/server.go:218-221 | the dump of the well-formed frame [0x10, 0x00] panics: the CONNECT decoder finds no protocol name |
| ServerRelay.EofOrPanic | server/server.go:80-90 | no error continues, io.EOF breaks, and any other error panics, each exactly in its case |
| ServerRelay.EndOn | server/server.go:94-112 | a read error ends the loop quietly exactly when it is io.EOF; any other is recovered as a failed read |
| ServerRelay.ReadFrame | server/server.go:105-139 | a frame read is the header byte, the length bytes and exactly `length` payload bytes, lying back to back at the front of the stream; the field is complete unless a clean end of stream cut it short; a field cut short carries an empty payload; a failed read ends the loop as `eofOrPanic` decides |
| ServerRelay.ServerStep | server/server.go:105-142 | a packet is forwarded only after the dumper has accepted exactly its bytes; a dumper panic ends the loop as recovered |
| ServerRelay.FrameOnPacket | server/server.go:107-136 | a well-formed packet at the front of the stream is read whole and no further, whatever follows it and however the stream ends |
| ServerRelay.StepOnPacket | server/server.go:107-142 | a well-formed packet at the front of the stream is forwarded with the dumper's report, or the loop ends with the dumper's panic |
| ServerRelay.SaveMessage | server/server.go:145-147 | the recorder gets at most the one frame just read, and gets it exactly when its file can be written |
| ServerRelay.Relay | server/server.go:92-171 | the bytes forwarded are a prefix of the stream; the loop never crashes; the recorder is closed exactly once; a working recorder holds exactly the forwarded frames, a failing one holds nothing |
| ServerRelay.ForwardedPayloadsComplete | server/server.go:135-139 | every forwarded packet carries exactly as many payload bytes as its length field announces |
| ServerRelay.EveryForwardedPacketDumped | server/server.go:141-151 | each forwarded packet was handed to the dumper, in order, and the dumper saw exactly the bytes written |
| ServerRelay.RelayPackets | server/server.go:105-163 | well-formed packets the dumper accepts are forwarded one by one, unchanged and in order, before the loop goes on with whatever follows them |
| ServerRelay.RelayRoundTrip | server/server.go:105-163 | k well-formed packets followed by a clean end of stream are forwarded byte for byte as exactly those k packets, and the loop then stops normally |
| ServerRelay.EofOnHeader | server/server.go:108-112 | a clean end of stream on the header byte writes nothing and stops the loop |
| ServerRelay.ShortPayloadDropped | server/server.go:135-139 | a payload shorter than its length field announces is neither dumped, recorded nor forwarded; a clean end stops quietly, another error is recovered |
| ServerRelay.EofInNonzeroField | server/server.go:120-139 | a clean end inside a length field whose bytes already add up to more than zero forwards nothing: the payload read that follows hits the end and `eofOrPanic` stops the loop |
| ServerRelay.EofInLengthField | server/server.go:120-142 | a clean end inside a length field that has accumulated 0 still hands the partial frame to the dumper and forwards it unless the dumper panics |
| ServerRelay.CompletePacketNotDropped | server/server.go:107-142 | a complete packet is never lost to a read error: it is forwarded, or the dumper panicked on it |
| ServerRelay.RecorderDoesNotAffectForwarding | server/server.go:144-151 | packets, dumps and the way the loop ends are the same with no recorder, a working one or one whose writes fail |
| ServerRelay.DumperDoesNotAffectForwarding | server/server.go:141-151 | any two dumpers that panic on the same buffers let the same packets through, record the same trace and stop quietly in the same cases, whatever they report |
| Proxify.ReadRemainingLength | server/server.go:116-133 | the inner loop, run on the bytes from a start position, returns exactly what the recursive length reader does |
| Proxify.ReadFrameFrom | server/server.go:105-139 | the reading half of the loop body returns exactly the frame `ReadFrame` describes |
| Proxify.ProxifyStream | server/server.go:92-171 | the loop writes exactly the bytes of the packets `Relay` forwards, records the same trace, ends the same way, never crashes and never writes a byte it did not read |
| Session.Serve | server/server.go:64-73 | the client-to-broker loop records nothing and closes no recorder; the broker-to-client loop records its forwarded frames when tracing to a working file; neither loop writes a byte it did not read |
| Session.TraceDoesNotAffectSession | server/server.go:47-73 | once the trace file is open, tracing changes nothing either peer receives |
| Session.ConnectDumped | server/server.go:212-223 | the dumper decodes a client-built CONNECT packet back to its fields without panicking |
| Session.SessionRoundTrip | server/server.go:64-73 | when both peers send packets the dumper accepts and each loop's stream ends in a clean EOF, each side receives exactly what the other sent, both loops stop normally, and a working trace holds every broker packet |
| Session.ClientCloseEndsBrokerLoop | server/server.go:62-76 | when the client's stream ends cleanly and the broker loop's next read then fails because `serve` closed the connections, the broker's packets sent before are all forwarded and the broker loop ends as a recovered panic, not a clean stop |
| Session.CutShortConnect | server/server.go:94-142 | a CONNECT header whose stream ends cleanly inside a zero-valued length field makes the dumper panic: nothing is forwarded and the loop ends recovered |
| Session.EmptyConnectStopsSession | server/server.go:94-142 | a well-formed CONNECT with remaining length zero ends the client's loop: neither it nor anything after it reaches the broker |
| LegacyRelay.LegacyReadLength | main.go:84-101 | the older length loop fails with exactly the error the reader reported, a clean end included, and otherwise consumes at least one byte |
| LegacyRelay.LegacyLengthAgrees | main.go:88-101 | on a stream holding a complete field the two length loops agree; on a stream that ends inside the field the older one always fails |
| LegacyRelay.LegacyReadFrame | main.go:73-107 | every failure of the older reader is a crash on a failed read; a frame read lies at the front of the stream |
| LegacyRelay.LegacyFrameAgrees | main.go:73-107 | every frame the older reader reads is the one the server reader reads; they differ only where a clean end cut a length field short |
| LegacyRelay.LegacyFrameValid | main.go:73-107 | every frame the older reader reads is a complete, well-formed packet |
| LegacyRelay.LegacyStep | main.go:73-115 | an iteration either forwards a frame after its name-only dump, or crashes on the failed read |
| LegacyRelay.LegacyRelay | main.go:70-126 | the bytes forwarded are a prefix of the stream, one dump per packet, and the loop always ends in a crash on the final read error |
| LegacyRelay.LegacyPacketsValid | main.go:70-126 | every packet the older loop forwards is well formed |
| LegacyRelay.LegacyDumpsNameHeaders | main.go:167-172 | each dump of the older loop names the type of its packet's header byte and decodes nothing |
| LegacyRelay.LegacyRelayPackets | main.go:73-115 | well-formed packets at the front of the stream are forwarded one by one, unchanged and in order |
| LegacyRelay.LegacyRoundTrip | main.go:73-80 | k well-formed packets are forwarded as exactly those k packets, and then the read of the next header crashes the process, even on a clean end of stream |
| LegacyRelay.LegacyMatchesServer | main.go:70-126 | on a well-formed stream whose every packet server/server.go's own `dumpMqttPdu` accepts, both loops forward the same packets; the server loop then stops quietly, the older one crashes |
| LegacyRelay.LegacyForwardsWhatServerDrops | main.go:108-112 | the loops part on a CONNECT with an empty payload, [0x10, 0x00]: the older loop forwards it, while the server loop's dumper panics on it and nothing is forwarded |
| LegacyRelay.LegacyEofInLengthField | main.go:88-94 | a stream that ends inside a length field forwards nothing and crashes, whatever the field's bytes |
| LegacyRelay.LegacyShortPayload | main.go:103-107 | a payload cut short forwards nothing and crashes |

## Left out

- Sockets and sessions: listening, accepting and dialling (`StartServer` and `serve` in
  `server/server.go`; `startServer` and `serve` in `main.go`) are not modelled. Neither are the
  panics on a failed dial or a failed trace-file creation. A session is modelled as its two
  loops over two given streams; closing the connections shows up only as the end event of the
  broker's stream (see the `Session.SessionRoundTrip` line below).
- Concurrency: the two loops of a session run on separate goroutines and are modelled
  independently. In `main.go` a crash in either loop ends the whole process, and so the
  other loop too. In `server/server.go` the end of the client loop closes both connections,
  which ends the broker loop (see the `Session.SessionRoundTrip` line below). Each loop is
  modelled on its own.
- Arrival of bytes: each stream is every byte the peer sends, followed by an end event that
  every later read reports again. The chunking of TCP reads and `bufio` buffering change
  nothing the loop observes and are not modelled.
- The writer: `bufio.Writer`, `Flush`, and write errors on the destination are not modelled.
  The destination is an append-only byte sequence that accepts every packet.
- The trace recorder: `recorder/recorder.go` (file creation, JSON, base64, separator lines,
  the nanosecond timestamp) is not part of this model. A recorder is reduced to whether its
  writes succeed, and `SaveMessage`'s error is ignored as in the source.
- Printing: `hex.Dump`, the `fmt` output ("SENT: ", "RCVD: ", "Recovered in f", "EoF") and
  the global `debug` flag are not modelled. A dump is the report the dumper computes.
- Session.SessionRoundTrip: takes each loop's end event as given. In `server/server.go`, when
  the client loop ends, `serve` closes the client connection (line 75) and then the broker
  connection (the deferred close at line 62). The broker loop, unless it had already read
  EOF, then fails its next read and ends Recovered. `Session.ClientCloseEndsBrokerLoop`
  states that case; when the close happens relative to the broker's bytes is not modelled.
- Integer width: `length` and `multiplier` are Go `int`s, which wrap after enough
  continuation bytes, and `io.CopyN` takes the length as `int64`. The model uses
  mathematical integers and makes no claim about wrap-around.
- A `main.go` loop as a method: the older loop exists only as the recursive `LegacyRelay`.
  The two nested loops are modelled as a method only for `server/server.go`.

=== FILE: connect.dfy ===
/** The CONNECT decoder of server/server.go: a positional parser for the variable header and
    payload of a CONNECT packet (sections 3.1.2 and 3.1.3 of MQTT 3.1.1), built on the
    length-prefixed strings of section 1.5.3. It reads from a bytes.Buffer over one whole
    packet; reading a byte from an exhausted buffer panics. Go strings are byte strings, so
    every string field is a byte sequence here. */
module Connect {
  import opened Outcomes
  import opened RemainingLength
  import opened Packets
  import opened MsgTypes

  /** The decoded CONNECT fields. Optional fields that the flags leave out stay empty. */
  datatype MqttConnect = MqttConnect(
    protocolName: Bytes,
    version: Byte,
    flags: Byte,
    keepAlive: nat,
    clientId: Bytes,
    username: Bytes,
    password: Bytes,
    willTopic: Bytes,
    willMsg: Bytes)
  {
    /** Connect flag bit 2: a will topic and a will message follow the client id. */
    predicate IsWillFlag()
      ensures IsWillFlag() <==> (flags as nat / 4) % 2 == 1
    {
      flags & 0x04 > 0
    }

    /** Connect flag bit 7: a user name follows. */
    predicate IsUserFlag()
      ensures IsUserFlag() <==> flags as nat >= 128
    {
      flags & 0x80 > 0
    }

    /** Connect flag bit 6: a password follows. */
    predicate IsPasswordFlag()
      ensures IsPasswordFlag() <==> (flags as nat / 64) % 2 == 1
    {
      flags & 0x40 > 0
    }
  }

  /** A value read from the front of a buffer, and what the buffer still holds. */
  datatype Read<+T> = Read(value: T, rest: Bytes)

  /** `getByte`: the next byte, or a panic when the buffer is exhausted. */
  function GetByte(buf: Bytes): (r: Result<Read<Byte>>)
    ensures r.Ok? <==> |buf| >= 1
    ensures r.Ok? ==> buf == [r.value.value] + r.value.rest
    ensures r.Panic? ==> r.cause == BufferEmpty
  {
    if |buf| == 0 then Panic(BufferEmpty) else Ok(Read(buf[0], buf[1..]))
  }

  /** `(uint16(msb) << 8) | uint16(lsb)`: the number a two-byte big-endian field carries.
      The bytes are its high and low halves, so no bits are lost or overlap. */
  function BigEndian16(msb: Byte, lsb: Byte): (n: nat)
    ensures n < 65536
    ensures n / 256 == msb as nat && n % 256 == lsb as nat
  {
    msb as nat * 256 + lsb as nat
  }

  /** `decode_string`: a two-byte big-endian length, then at most that many bytes. When
      fewer remain, `buff.Next` hands back what is left: the string comes back short and
      the read never goes past the buffer. Fewer than two bytes for the prefix panic. */
  function DecodeString(buf: Bytes): (r: Result<Read<Bytes>>)
    ensures r.Ok? <==> |buf| >= 2
    ensures r.Panic? ==> r.cause == BufferEmpty
    ensures r.Ok? ==> buf == buf[..2] + r.value.value + r.value.rest
    ensures r.Ok? ==> |r.value.value| <= BigEndian16(buf[0], buf[1])
    ensures r.Ok? && |r.value.value| < BigEndian16(buf[0], buf[1]) ==> r.value.rest == []
  {
    var msb :- GetByte(buf);
    var lsb :- GetByte(msb.rest);
    var pLen := BigEndian16(msb.value, lsb.value);
    var n := if pLen <= |lsb.rest| then pLen else |lsb.rest|;
    assert buf[..2] == [msb.value, lsb.value];
    Ok(Read(lsb.rest[..n], lsb.rest[n..]))
  }

  /** The loop `for getByte(dump)&128 != 0 {}`: skips the remaining-length field. It panics
      when the buffer ends before a byte with bit 7 clear. */
  function SkipLengthField(buf: Bytes): (r: Result<Bytes>)
    decreases |buf|
    ensures r.Panic? <==> AllContinue(buf)
    ensures r.Panic? ==> r.cause == BufferEmpty
    ensures r.Ok? ==> |r.value| < |buf|
    ensures r.Ok? ==> IsLengthField(buf[..|buf| - |r.value|]) && buf[|buf| - |r.value|..] == r.value
  {
    AllContinueEmpty(buf);
    var b :- GetByte(buf);
    AllContinueCons(buf);
    if Continues(b.value) then
      var r := SkipLengthField(b.rest);
      if r.Ok? then
        FieldCons(buf, |b.rest| - |r.value|, Eof);
        assert buf[1..][..|b.rest| - |r.value|] == b.rest[..|b.rest| - |r.value|];
        r
      else
        r
    else
      assert buf[..1] == [b.value];
      Ok(b.rest)
  }

  lemma AllContinueEmpty(buf: Bytes)
    ensures |buf| == 0 ==> AllContinue(buf)
  {
  }

  /** The skip loop stops right after a complete field. */
  lemma SkipField(f: Bytes, tail: Bytes)
    requires IsLengthField(f)
    ensures SkipLengthField(f + tail) == Ok(tail)
  {
    var buf := f + tail;
    ConcatSlices(f, tail, |f| - 1);
    var r := SkipLengthField(buf);
    var k := |buf| - |r.value|;
    ConcatSlices(f, tail, k);
    if k < |f| {
      FieldPrefixUnique(buf[..k], f);
    } else if k > |f| {
      FieldPrefixUnique(f, buf[..k]);
    }
  }

  /** How slices of `f + tail` fall on either side of the join. */
  lemma ConcatSlices(f: Bytes, tail: Bytes, k: nat)
    requires k <= |f + tail|
    ensures k < |f| ==> (f + tail)[k] == f[k]
    ensures k <= |f| ==> (f + tail)[..k] == f[..k]
    ensures k >= |f| ==> (f + tail)[..k][..|f|] == f
    ensures (f + tail)[|f|..] == tail
  {
  }

  /** `decode_connect`: skip the header byte (its error ignored) and the remaining-length
      field, then read the fields in wire order. */
  function DecodeConnect(pdu: Bytes): (r: Result<MqttConnect>)
    ensures r.Panic? ==> r.cause == BufferEmpty
    ensures r.Ok? ==> r.value.keepAlive < 65536
    ensures r.Ok? && !r.value.IsWillFlag() ==> r.value.willTopic == [] && r.value.willMsg == []
    ensures r.Ok? && !r.value.IsUserFlag() ==> r.value.username == []
    ensures r.Ok? && !r.value.IsPasswordFlag() ==> r.value.password == []
    ensures r.Ok? ==> FieldBytes(r.value) <= |pdu|
  {
    var buf := if |pdu| == 0 then pdu else pdu[1..];
    var body :- SkipLengthField(buf);
    DecodeConnectBody(body)
  }

  /** How many string bytes a decoded CONNECT holds; it never exceeds the packet. */
  function FieldBytes(c: MqttConnect): nat
  {
    |c.protocolName| + |c.clientId| + |c.willTopic| + |c.willMsg| + |c.username| + |c.password|
  }

  /** The fields after the remaining-length field. */
  function DecodeConnectBody(buf: Bytes): (r: Result<MqttConnect>)
    ensures r.Panic? ==> r.cause == BufferEmpty
    ensures r.Ok? ==> r.value.keepAlive < 65536
    ensures r.Ok? && !r.value.IsWillFlag() ==> r.value.willTopic == [] && r.value.willMsg == []
    ensures r.Ok? && !r.value.IsUserFlag() ==> r.value.username == []
    ensures r.Ok? && !r.value.IsPasswordFlag() ==> r.value.password == []
    ensures r.Ok? ==> FieldBytes(r.value) <= |buf|
  {
    var fixed :- DecodeFixedFields(buf);
    DecodeOptionalFields(fixed.value, fixed.rest)
  }

  /** The protocol name, level, flags, keep-alive and client id, which every CONNECT has. */
  function DecodeFixedFields(buf: Bytes): (r: Result<Read<MqttConnect>>)
    ensures r.Panic? ==> r.cause == BufferEmpty
    ensures r.Ok? ==> r.value.value.keepAlive < 65536
    ensures r.Ok? ==> var c := r.value.value;
                      c.willTopic == [] && c.willMsg == [] && c.username == [] && c.password == []
    ensures r.Ok? ==> FieldBytes(r.value.value) + |r.value.rest| <= |buf|
  {
    var name :- DecodeString(buf);
    var version :- GetByte(name.rest);
    var flags :- GetByte(version.rest);
    var msb :- GetByte(flags.rest);
    var lsb :- GetByte(msb.rest);
    var clientId :- DecodeString(lsb.rest);
    Ok(Read(MqttConnect(name.value, version.value, flags.value, BigEndian16(msb.value, lsb.value),
                        clientId.value, [], [], [], []), clientId.rest))
  }

  /** The fields the connect flags gate, in wire order: will, user name, password. */
  function DecodeOptionalFields(cnx: MqttConnect, buf: Bytes): (r: Result<MqttConnect>)
    requires cnx.willTopic == [] && cnx.willMsg == [] && cnx.username == [] && cnx.password == []
    ensures r.Panic? ==> r.cause == BufferEmpty
    ensures r.Ok? ==> r.value == cnx.(willTopic := r.value.willTopic, willMsg := r.value.willMsg,
                                      username := r.value.username, password := r.value.password)
    ensures r.Ok? && !cnx.IsWillFlag() ==> r.value.willTopic == [] && r.value.willMsg == []
    ensures r.Ok? && !cnx.IsUserFlag() ==> r.value.username == []
    ensures r.Ok? && !cnx.IsPasswordFlag() ==> r.value.password == []
    ensures r.Ok? ==> FieldBytes(r.value) <= FieldBytes(cnx) + |buf|
  {
    var will :- DecodeWill(cnx, buf);
    var user :- DecodeUsername(will.value, will.rest);
    var password :- DecodePassword(user.value, user.rest);
    Ok(password.value)
  }

  /** Will topic then will message, when flag bit 2 is set. */
  function DecodeWill(cnx: MqttConnect, buf: Bytes): (r: Result<Read<MqttConnect>>)
    requires cnx.willTopic == [] && cnx.willMsg == []
    ensures r.Ok? ==> r.value.value == cnx.(willTopic := r.value.value.willTopic, willMsg := r.value.value.willMsg)
    ensures r.Ok? ==> |r.value.value.willTopic| + |r.value.value.willMsg| + |r.value.rest| <= |buf|
    ensures r.Panic? ==> cnx.IsWillFlag() && r.cause == BufferEmpty
  {
    if cnx.IsWillFlag() then
      var topic :- DecodeString(buf);
      var msg :- DecodeString(topic.rest);
      Ok(Read(cnx.(willTopic := topic.value, willMsg := msg.value), msg.rest))
    else
      Ok(Read(cnx, buf))
  }

  /** The user name, when flag bit 7 is set. */
  function DecodeUsername(cnx: MqttConnect, buf: Bytes): (r: Result<Read<MqttConnect>>)
    requires cnx.username == []
    ensures r.Ok? ==> r.value.value == cnx.(username := r.value.value.username)
    ensures r.Ok? ==> |r.value.value.username| + |r.value.rest| <= |buf|
    ensures r.Panic? ==> cnx.IsUserFlag() && r.cause == BufferEmpty
  {
    if cnx.IsUserFlag() then
      var name :- DecodeString(buf);
      Ok(Read(cnx.(username := name.value), name.rest))
    else
      Ok(Read(cnx, buf))
  }

  /** The password, when flag bit 6 is set. */
  function DecodePassword(cnx: MqttConnect, buf: Bytes): (r: Result<Read<MqttConnect>>)
    requires cnx.password == []
    ensures r.Ok? ==> r.value.value == cnx.(password := r.value.value.password)
    ensures r.Ok? ==> |r.value.value.password| + |r.value.rest| <= |buf|
    ensures r.Panic? ==> cnx.IsPasswordFlag() && r.cause == BufferEmpty
  {
    if cnx.IsPasswordFlag() then
      var word :- DecodeString(buf);
      Ok(Read(cnx.(password := word.value), word.rest))
    else
      Ok(Read(cnx, buf))
  }
}

=== FILE: connect_encoding.dfy ===
/** The sender's side of a CONNECT packet, the partner the decoder is checked against: a
    client lays the fields out in the order of sections 3.1.2 and 3.1.3 of MQTT 3.1.1, and
    the decoder must give back exactly those fields. */
module ConnectEncoding {
  import opened Outcomes
  import opened RemainingLength
  import opened Packets
  import opened MsgTypes
  import opened Connect

  /** A CONNECT a client can send: every string fits a two-byte length prefix, the
      keep-alive fits sixteen bits, and the fields the flags leave out are empty. */
  predicate Encodable(c: MqttConnect)
  {
    && |c.protocolName| < 65536
    && c.keepAlive < 65536
    && |c.clientId| < 65536
    && |c.willTopic| < 65536
    && |c.willMsg| < 65536
    && |c.username| < 65536
    && |c.password| < 65536
    && (!c.IsWillFlag() ==> c.willTopic == [] && c.willMsg == [])
    && (!c.IsUserFlag() ==> c.username == [])
    && (!c.IsPasswordFlag() ==> c.password == [])
  }

  /** A length-prefixed string (section 1.5.3 of MQTT 3.1.1). */
  function EncodeString(s: Bytes): (e: Bytes)
    requires |s| < 65536
    ensures |e| == |s| + 2
    ensures BigEndian16(e[0], e[1]) == |s| && e[2..] == s
  {
    [ByteOf(|s| / 256), ByteOf(|s| % 256)] + s
  }

  function Optional(present: bool, s: Bytes): Bytes
    requires |s| < 65536
  {
    if present then EncodeString(s) else []
  }

  /** Variable header and payload, in wire order. */
  function ConnectPayload(c: MqttConnect): Bytes
    requires Encodable(c)
  {
    EncodeString(c.protocolName)
    + ([c.version]
    + ([c.flags]
    + ([ByteOf(c.keepAlive / 256)]
    + ([ByteOf(c.keepAlive % 256)]
    + (EncodeString(c.clientId)
    + OptionalTail(c))))))
  }

  function OptionalTail(c: MqttConnect): Bytes
    requires Encodable(c)
  {
    (if c.IsWillFlag() then EncodeString(c.willTopic) + EncodeString(c.willMsg) else [])
    + (Optional(c.IsUserFlag(), c.username)
    + Optional(c.IsPasswordFlag(), c.password))
  }

  /** The whole CONNECT packet: header 0x10 and the canonical remaining length. */
  function ConnectPacket(c: MqttConnect): (p: Packet)
    requires Encodable(c)
    ensures ValidPacket(p)
    ensures DecodeMsgType(p.header) == CONNECT
  {
    MakePacket(0x10, ConnectPayload(c))
  }

  /** A length-prefixed string followed by anything decodes to that string. */
  lemma StringRoundTrip(s: Bytes, tail: Bytes)
    requires |s| < 65536
    ensures DecodeString(EncodeString(s) + tail) == Ok(Read(s, tail))
  {
    var buf := EncodeString(s) + tail;
    assert buf[0] == EncodeString(s)[0] && buf[1] == EncodeString(s)[1];
    assert buf[2..] == s + tail;
    assert (s + tail)[..|s|] == s && (s + tail)[|s|..] == tail;
  }

  /** A string whose prefix announces more bytes than remain comes back short: all that is
      left, with no error. */
  lemma TruncatedString(n: nat, s: Bytes)
    requires |s| < n < 65536
    ensures DecodeString([ByteOf(n / 256), ByteOf(n % 256)] + s) == Ok(Read(s, []))
  {
    var buf := [ByteOf(n / 256), ByteOf(n % 256)] + s;
    assert BigEndian16(buf[0], buf[1]) == n;
    assert buf[2..] == s;
    assert s[..|s|] == s && s[|s|..] == [];
  }

  lemma GetByteFront(b: Byte, tail: Bytes)
    ensures GetByte([b] + tail) == Ok(Read(b, tail))
  {
    assert ([b] + tail)[1..] == tail;
  }

  /** The decoder takes back exactly the fields a client put on the wire. */
  lemma ConnectRoundTrip(c: MqttConnect)
    requires Encodable(c)
    ensures DecodeConnect(PacketBytes(ConnectPacket(c))) == Ok(c)
  {
    var p := ConnectPacket(c);
    BodyRoundTrip(c);
    DecodeFramed(p, c);
  }

  /** `decode_connect` skips the header and the length field and decodes what follows. */
  lemma DecodeFramed(p: Packet, c: MqttConnect)
    requires IsLengthField(p.lengthField)
    requires DecodeConnectBody(p.payload) == Ok(c)
    ensures DecodeConnect(PacketBytes(p)) == Ok(c)
  {
    AfterHeader(p, []);
    SkipField(p.lengthField, p.payload);
  }

  lemma BodyRoundTrip(c: MqttConnect)
    requires Encodable(c)
    ensures DecodeConnectBody(ConnectPayload(c)) == Ok(c)
  {
    var cnx := c.(willTopic := [], willMsg := [], username := [], password := []);
    FixedRoundTrip(c, cnx);
    OptionalRoundTrip(c, cnx);
  }

  /** The fields every CONNECT has come back first, and the gated ones are left to read. */
  lemma FixedRoundTrip(c: MqttConnect, cnx: MqttConnect)
    requires Encodable(c)
    requires cnx == c.(willTopic := [], willMsg := [], username := [], password := [])
    ensures DecodeFixedFields(ConnectPayload(c)) == Ok(Read(cnx, OptionalTail(c)))
  {
    var t5 := EncodeString(c.clientId) + OptionalTail(c);
    var t4 := [ByteOf(c.keepAlive % 256)] + t5;
    var t3 := [ByteOf(c.keepAlive / 256)] + t4;
    var t2 := [c.flags] + t3;
    var t1 := [c.version] + t2;
    StringRoundTrip(c.protocolName, t1);
    GetByteFront(c.version, t2);
    GetByteFront(c.flags, t3);
    GetByteFront(ByteOf(c.keepAlive / 256), t4);
    GetByteFront(ByteOf(c.keepAlive % 256), t5);
    StringRoundTrip(c.clientId, OptionalTail(c));
    KeepAliveRoundTrip(c.keepAlive);
  }

  lemma KeepAliveRoundTrip(k: nat)
    requires k < 65536
    ensures BigEndian16(ByteOf(k / 256), ByteOf(k % 256)) == k
  {
  }

  lemma OptionalRoundTrip(c: MqttConnect, cnx: MqttConnect)
    requires Encodable(c)
    requires cnx == c.(willTopic := [], willMsg := [], username := [], password := [])
    ensures DecodeOptionalFields(cnx, OptionalTail(c)) == Ok(c)
  {
    var passTail := Optional(c.IsPasswordFlag(), c.password);
    var userTail := Optional(c.IsUserFlag(), c.username) + passTail;
    var afterWill := cnx.(willTopic := c.willTopic, willMsg := c.willMsg);
    var afterUser := afterWill.(username := c.username);
    WillRoundTrip(c, cnx, userTail);
    UsernameRoundTrip(c, afterWill, passTail);
    PasswordRoundTrip(c, afterUser);
  }

  lemma WillRoundTrip(c: MqttConnect, cnx: MqttConnect, userTail: Bytes)
    requires Encodable(c)
    requires cnx == c.(willTopic := [], willMsg := [], username := [], password := [])
    requires userTail == Optional(c.IsUserFlag(), c.username) + Optional(c.IsPasswordFlag(), c.password)
    ensures DecodeWill(cnx, OptionalTail(c))
            == Ok(Read(cnx.(willTopic := c.willTopic, willMsg := c.willMsg), userTail))
  {
    if c.IsWillFlag() {
      assert OptionalTail(c) == EncodeString(c.willTopic) + (EncodeString(c.willMsg) + userTail);
      StringRoundTrip(c.willTopic, EncodeString(c.willMsg) + userTail);
      StringRoundTrip(c.willMsg, userTail);
    } else {
      assert OptionalTail(c) == userTail;
    }
  }

  lemma UsernameRoundTrip(c: MqttConnect, cnx: MqttConnect, passTail: Bytes)
    requires Encodable(c)
    requires cnx == c.(username := [], password := [])
    requires passTail == Optional(c.IsPasswordFlag(), c.password)
    ensures DecodeUsername(cnx, Optional(c.IsUserFlag(), c.username) + passTail)
            == Ok(Read(cnx.(username := c.username), passTail))
  {
    if c.IsUserFlag() {
      StringRoundTrip(c.username, passTail);
    } else {
      assert Optional(c.IsUserFlag(), c.username) + passTail == passTail;
    }
  }

  lemma PasswordRoundTrip(c: MqttConnect, cnx: MqttConnect)
    requires Encodable(c)
    requires cnx == c.(password := [])
    ensures DecodePassword(cnx, Optional(c.IsPasswordFlag(), c.password)) == Ok(Read(c, []))
  {
    if c.IsPasswordFlag() {
      assert EncodeString(c.password) == EncodeString(c.password) + [];
      StringRoundTrip(c.password, []);
    }
  }

  /** Flags 0x02 (clean session only) gate in no optional field; flags 0xC4 gate in the will,
      the user name and the password, since 0xC4 has bits 2, 6 and 7 set. */
  lemma FlagExamples(c: MqttConnect)
    ensures c.flags == 0x02 ==> !c.IsWillFlag() && !c.IsUserFlag() && !c.IsPasswordFlag()
    ensures c.flags == 0xC4 ==> c.IsWillFlag() && c.IsUserFlag() && c.IsPasswordFlag()
  {
  }

  /** A CONNECT whose payload is shorter than 128 bytes has a one-byte length field. */
  lemma ShortConnectPacket(c: MqttConnect)
    requires Encodable(c) && |ConnectPayload(c)| < 128
    ensures PacketBytes(ConnectPacket(c)) == [0x10, ByteOf(|ConnectPayload(c)|)] + ConnectPayload(c)
  {
    var payload := ConnectPayload(c);
    SmallLength(|payload|);
    TwoByteHeader(0x10, ByteOf(|payload|), payload);
  }

  lemma TwoByteHeader(h: Byte, b: Byte, payload: Bytes)
    ensures PacketBytes(Packet(h, [b], payload)) == [h, b] + payload
  {
  }

  lemma ShortConnectDecodes(c: MqttConnect)
    requires Encodable(c) && |ConnectPayload(c)| < 128
    ensures DecodeConnect([0x10, ByteOf(|ConnectPayload(c)|)] + ConnectPayload(c)) == Ok(c)
  {
    ConnectRoundTrip(c);
    ShortConnectPacket(c);
  }

  /** A length below 128 is a single byte holding the number itself. */
  lemma SmallLength(n: nat)
    requires n < 128
    ensures EncodeLength(n) == [ByteOf(n)]
  {
  }

  /** A client sends CONNECT with protocol name "MQTT", level 4, flags 0x02, keep-alive 60
      and client id "dev1": exactly these five fields come back and nothing else. */
  lemma CleanSessionScenario()
    ensures DecodeConnect([0x10, 0x10] + [0x00, 0x04, 0x4D, 0x51, 0x54, 0x54, 0x04, 0x02,
                                          0x00, 0x3C, 0x00, 0x04, 0x64, 0x65, 0x76, 0x31])
            == Ok(MqttConnect([0x4D, 0x51, 0x54, 0x54], 0x04, 0x02, 60, [0x64, 0x65, 0x76, 0x31],
                              [], [], [], []))
  {
    var c := MqttConnect([0x4D, 0x51, 0x54, 0x54], 0x04, 0x02, 60, [0x64, 0x65, 0x76, 0x31],
                         [], [], [], []);
    assert Encodable(c) by { FlagExamples(c); }
    var payload := CleanSessionPayload(c);
    ByteLiterals();
    ShortConnectDecodes(c);
  }

  lemma CleanSessionPayload(c: MqttConnect) returns (payload: Bytes)
    requires c == MqttConnect([0x4D, 0x51, 0x54, 0x54], 0x04, 0x02, 60, [0x64, 0x65, 0x76, 0x31],
                              [], [], [], [])
    requires Encodable(c)
    ensures payload == ConnectPayload(c)
    ensures payload == [0x00, 0x04, 0x4D, 0x51, 0x54, 0x54, 0x04, 0x02,
                        0x00, 0x3C, 0x00, 0x04, 0x64, 0x65, 0x76, 0x31]
  {
    FlagExamples(c);
    ByteLiterals();
    assert OptionalTail(c) == [];
    ShortString(c.protocolName);
    ShortString(c.clientId);
    payload := ConnectPayload(c);
    CleanSessionLayout([0x00, 0x04]);
  }

  lemma CleanSessionLayout(lead: Bytes)
    requires lead == [0x00, 0x04]
    ensures lead + [0x4D, 0x51, 0x54, 0x54] + ([0x04] + ([0x02] + ([0x00] + ([0x3C]
            + ((lead + [0x64, 0x65, 0x76, 0x31]) + [])))))
         == [0x00, 0x04, 0x4D, 0x51, 0x54, 0x54, 0x04, 0x02,
             0x00, 0x3C, 0x00, 0x04, 0x64, 0x65, 0x76, 0x31]
  {
  }

  /** With flags 0xC4 the will topic, will message, user name and password are all read
      from the wire, in that order. */
  lemma AllOptionalScenario()
    ensures DecodeConnect([0x10, 0x18] + [0x00, 0x04, 0x4D, 0x51, 0x54, 0x54, 0x04, 0xC4,
                                          0x00, 0x3C, 0x00, 0x00, 0x00, 0x01, 0x74, 0x00,
                                          0x01, 0x6D, 0x00, 0x01, 0x75, 0x00, 0x01, 0x70])
            == Ok(MqttConnect([0x4D, 0x51, 0x54, 0x54], 0x04, 0xC4, 60, [],
                              [0x75], [0x70], [0x74], [0x6D]))
  {
    var c := MqttConnect([0x4D, 0x51, 0x54, 0x54], 0x04, 0xC4, 60, [], [0x75], [0x70], [0x74], [0x6D]);
    assert Encodable(c) by { FlagExamples(c); }
    var payload := AllOptionalPayload(c);
    ByteLiterals();
    ShortConnectDecodes(c);
  }

  lemma AllOptionalPayload(c: MqttConnect) returns (payload: Bytes)
    requires c == MqttConnect([0x4D, 0x51, 0x54, 0x54], 0x04, 0xC4, 60, [], [0x75], [0x70], [0x74], [0x6D])
    requires Encodable(c)
    ensures payload == ConnectPayload(c)
    ensures payload == [0x00, 0x04, 0x4D, 0x51, 0x54, 0x54, 0x04, 0xC4, 0x00, 0x3C, 0x00, 0x00,
                        0x00, 0x01, 0x74, 0x00, 0x01, 0x6D, 0x00, 0x01, 0x75, 0x00, 0x01, 0x70]
  {
    AllOptionalTail(c);
    ByteLiterals();
    ShortString(c.protocolName);
    ShortString(c.clientId);
    payload := ConnectPayload(c);
    AllOptionalLayout([0x00, 0x04]);
  }

  lemma AllOptionalLayout(lead: Bytes)
    requires lead == [0x00, 0x04]
    ensures lead + [0x4D, 0x51, 0x54, 0x54] + ([0x04] + ([0xC4] + ([0x00] + ([0x3C]
            + (([0x00, 0x00] + []) + [0x00, 0x01, 0x74, 0x00, 0x01, 0x6D, 0x00, 0x01, 0x75, 0x00, 0x01, 0x70])))))
         == [0x00, 0x04, 0x4D, 0x51, 0x54, 0x54, 0x04, 0xC4, 0x00, 0x3C, 0x00, 0x00,
             0x00, 0x01, 0x74, 0x00, 0x01, 0x6D, 0x00, 0x01, 0x75, 0x00, 0x01, 0x70]
  {
  }

  lemma AllOptionalTail(c: MqttConnect)
    requires c == MqttConnect([0x4D, 0x51, 0x54, 0x54], 0x04, 0xC4, 60, [], [0x75], [0x70], [0x74], [0x6D])
    requires Encodable(c)
    ensures OptionalTail(c) == [0x00, 0x01, 0x74, 0x00, 0x01, 0x6D, 0x00, 0x01, 0x75, 0x00, 0x01, 0x70]
  {
    FlagExamples(c);
    ByteLiterals();
    ShortString(c.willTopic);
    ShortString(c.willMsg);
    ShortString(c.username);
    ShortString(c.password);
  }

  /** A string shorter than 256 bytes has a zero high length byte. */
  lemma ShortString(s: Bytes)
    requires |s| < 256
    ensures EncodeString(s) == [0x00, ByteOf(|s|)] + s
  {
    assert |s| / 256 == 0 && |s| % 256 == |s|;
    assert ByteOf(0) == 0x00;
  }

  /** The byte values the examples above spell out. */
  lemma ByteLiterals()
    ensures ByteOf(0) == 0x00 && ByteOf(1) == 0x01 && ByteOf(4) == 0x04
    ensures ByteOf(16) == 0x10 && ByteOf(24) == 0x18 && ByteOf(60) == 0x3C
  {
  }
}

=== FILE: dump.dfy ===
/** The console dumpers the relay loops call on every packet before forwarding it. They read
    the packet's bytes and never change them; the hex dump and the printing itself are not
    modelled, only what the dumper decodes and whether it panics. */
module Dump {
  import opened Outcomes
  import opened MsgTypes
  import opened Connect

  /** What a dump reports: the type, its name, and for a CONNECT the decoded fields. */
  datatype PduDump = PduDump(msgType: Byte, name: string, connect: Option<MqttConnect>)

  /** `dumpMqttPdu` of server/server.go: names the type of `dump[0]` and, for a CONNECT,
      decodes the fields from a separate reader over the same bytes. That decoding panics
      when the packet is too short for the fields it announces. The relay never hands it an
      empty buffer; `dump[0]` would panic on one. */
  function DumpMqttPdu(pdu: Bytes): (r: Result<PduDump>)
    ensures |pdu| == 0 ==> r == Panic(IndexOutOfRange)
    ensures r.Ok? ==> r.value.msgType == DecodeMsgType(pdu[0])
    ensures r.Ok? ==> r.value.name == TypeName(DecodeMsgType(pdu[0]))
    ensures r.Ok? ==> (r.value.connect.Some? <==> DecodeMsgType(pdu[0]) == CONNECT)
    ensures r.Ok? && r.value.connect.Some? ==> DecodeConnect(pdu) == Ok(r.value.connect.value)
    ensures |pdu| >= 1 ==> (r.Panic? <==> DecodeMsgType(pdu[0]) == CONNECT && DecodeConnect(pdu).Panic?)
  {
    if |pdu| == 0 then Panic(IndexOutOfRange) else
    var msgType := DecodeMsgType(pdu[0]);
    if msgType == CONNECT then
      var cnx :- DecodeConnect(pdu);
      Ok(PduDump(msgType, TypeName(msgType), Some(cnx)))
    else
      Ok(PduDump(msgType, TypeName(msgType), None))
  }

  /** `dumpMqttPdu` of main.go: the type name only, no CONNECT decoding, so it cannot panic. */
  function LegacyDumpMqttPdu(pdu: Bytes): (r: Result<PduDump>)
    ensures r.Panic? <==> |pdu| == 0
    ensures r.Panic? ==> r.cause == IndexOutOfRange
    ensures r.Ok? ==> r.value.msgType == DecodeMsgType(pdu[0]) && r.value.name == TypeName(r.value.msgType)
    ensures r.Ok? ==> r.value.connect == None
  {
    if |pdu| == 0 then Panic(IndexOutOfRange) else
    var msgType := DecodeMsgType(pdu[0]);
    Ok(PduDump(msgType, TypeName(msgType), None))
  }

  /** The report that names a header byte's type and decodes nothing. */
  function NameOnly(header: Byte): PduDump
  {
    PduDump(DecodeMsgType(header), TypeName(DecodeMsgType(header)), None)
  }

  /** Off CONNECT the two dumpers say the same thing, and neither can panic. */
  lemma DumpsAgreeOffConnect(pdu: Bytes)
    requires |pdu| >= 1 && DecodeMsgType(pdu[0]) != CONNECT
    ensures DumpMqttPdu(pdu) == Ok(NameOnly(pdu[0]))
    ensures LegacyDumpMqttPdu(pdu) == Ok(NameOnly(pdu[0]))
  {
  }

  /** A CONNECT whose remaining length is zero has no protocol name to read: the dumper of
      server/server.go panics on it, although the frame itself is well formed. */
  lemma EmptyConnectPanics()
    ensures DumpMqttPdu([0x10, 0x00]) == Panic(BufferEmpty)
  {
    var pdu: Bytes := [0x10, 0x00];
    assert pdu[1..] == [0x00];
    assert SkipLengthField([0x00]) == Ok([]);
    assert DecodeString([]) == Panic(BufferEmpty);
  }
}

=== FILE: legacy_relay.dfy ===
/** The older relay loop `proxifyStream` of main.go. It cuts packets out of the stream by the
    same rule as the loop of server/server.go, but it checks every read error with a bare
    `panic`, a clean end of stream included, and nothing recovers that panic: the loop has no
    normal exit, and the end of either stream brings the whole process down. Its dumper only
    names the type of the header byte. */
module LegacyRelay {
  import opened Outcomes
  import opened RemainingLength
  import opened Packets
  import opened MsgTypes
  import opened Dump
  import opened ServerRelay

  /** The length loop of main.go. The byte read is appended to the buffer before the error is
      looked at, but any error panics, so a field the stream cuts short is never complete. */
  function LegacyReadLength(data: Bytes, end: ReadError, multiplier: nat, length: nat): (r: LengthRead)
    decreases |data|
    ensures r.LengthFailed? ==> r.err == end
    ensures r.LengthRead? ==> 1 <= r.size <= |data|
  {
    if |data| == 0 then
      LengthFailed(end)
    else
      var b := data[0];
      var length' := length + Digit(b) * multiplier;
      if !Continues(b) then
        LengthRead(1, length')
      else
        match LegacyReadLength(data[1..], end, multiplier * 128, length')
        case LengthFailed(e) => LengthFailed(e)
        case LengthRead(n, v) => LengthRead(n + 1, v)
  }

  /** The two length loops agree on every stream that holds a complete field; on a stream
      that ends inside the field the old one always fails, with whatever error the reader
      reported. */
  lemma {:induction false} LegacyLengthAgrees(data: Bytes, end: ReadError, multiplier: nat, length: nat)
    ensures AllContinue(data) ==> LegacyReadLength(data, end, multiplier, length) == LengthFailed(end)
    ensures !AllContinue(data) ==> LegacyReadLength(data, end, multiplier, length) == ReadLength(data, end, multiplier, length)
    decreases |data|
  {
    if |data| > 0 {
      AllContinueCons(data);
      var b := data[0];
      if Continues(b) {
        LegacyLengthAgrees(data[1..], end, multiplier * 128, length + Digit(b) * multiplier);
      }
    }
  }

  /** The reading half of one iteration of main.go. Every way it can fail is a read error
      that panics. */
  function LegacyReadFrame(data: Bytes, end: ReadError): (r: FrameRead)
    ensures r.NoFrame? ==> r.exit == Crashed(ReadFailed(end))
    ensures r.Frame? ==> data == PacketBytes(r.packet) + r.rest
  {
    if |data| == 0 then
      NoFrame(Crashed(ReadFailed(end)))
    else
      match LegacyReadLength(data[1..], end, 1, 0)
      case LengthFailed(e) => NoFrame(Crashed(ReadFailed(e)))
      case LengthRead(n, length) =>
        var after := data[1..][n..];
        if |after| < length then
          NoFrame(Crashed(ReadFailed(end)))
        else
          Reassemble(data, n, length);
          Frame(Packet(data[0], data[1..][..n], after[..length]), after[length..])
  }

  /** Every packet the old loop reads is the one the server loop reads. The two differ only
      where the server loop keeps a frame whose length field a clean end of stream cut
      short: the old loop panics there instead. */
  lemma LegacyFrameAgrees(data: Bytes, end: ReadError)
    ensures LegacyReadFrame(data, end).Frame? ==> ReadFrame(data, end) == LegacyReadFrame(data, end)
    ensures LegacyReadFrame(data, end).NoFrame? && ReadFrame(data, end).Frame? ==>
              && end == Eof && ReadFrame(data, end).rest == []
              && AllContinue(ReadFrame(data, end).packet.lengthField)
  {
    if |data| > 0 {
      LegacyLengthAgrees(data[1..], end, 1, 0);
      if AllContinue(data[1..]) {
        CutFieldFrame(data, end);
      }
    }
  }

  /** When the stream ends inside the length field, the server reader keeps a frame only on
      a clean end, and that frame is the whole rest of the stream. */
  lemma CutFieldFrame(data: Bytes, end: ReadError)
    requires |data| > 0 && AllContinue(data[1..])
    ensures ReadFrame(data, end).Frame? ==>
              end == Eof && ReadFrame(data, end).rest == [] && AllContinue(ReadFrame(data, end).packet.lengthField)
  {
    var t := data[1..];
    ReadLengthShape(t, end, 1, 0);
    var r := ReadLength(t, end, 1, 0);
    if r.LengthRead? {
      NoFieldInContinues(t, r.size);
      assert t[..r.size] == t && t[r.size..] == [];
    }
  }

  /** No prefix of a run of continuation bytes is a complete field. */
  lemma NoFieldInContinues(t: Bytes, n: nat)
    requires AllContinue(t) && n <= |t|
    ensures !IsLengthField(t[..n])
  {
    if n > 0 {
      assert t[..n][n - 1] == t[n - 1];
    }
  }

  /** Every frame the old loop reads is a complete, well-formed packet. */
  lemma LegacyFrameValid(data: Bytes, end: ReadError)
    ensures LegacyReadFrame(data, end).Frame? ==> ValidPacket(LegacyReadFrame(data, end).packet)
  {
    if LegacyReadFrame(data, end).Frame? {
      LegacyFrameAgrees(data, end);
      var p := LegacyReadFrame(data, end).packet;
      LegacyLengthAgrees(data[1..], end, 1, 0);
      assert !AllContinue(data[1..]);
      assert IsLengthField(p.lengthField) by {
        ReadLengthShape(data[1..], end, 1, 0);
      }
    }
  }

  /** One iteration of main.go: read a packet, name its type, forward it. The dumper reads
      only `dump[0]` of a buffer that always holds the header byte, so it cannot panic. */
  function LegacyStep(data: Bytes, end: ReadError): (r: Step)
    ensures r.Halt? ==> r.exit == Crashed(ReadFailed(end))
    ensures r.Forward? ==> LegacyReadFrame(data, end) == Frame(r.packet, r.rest)
    ensures r.Forward? ==> LegacyDumpMqttPdu(PacketBytes(r.packet)) == Ok(r.dump)
    ensures r.Halt? <==> LegacyReadFrame(data, end).NoFrame?
  {
    match LegacyReadFrame(data, end)
    case NoFrame(exit) => Halt(exit)
    case Frame(packet, rest) => Forward(packet, LegacyDumpMqttPdu(PacketBytes(packet)).value, rest)
  }

  /** Everything one direction of main.go does: the packets written, the dumps, and how the
      loop ended. */
  datatype LegacyResult = LegacyResult(packets: seq<Packet>, dumps: seq<PduDump>, exit: Exit)

  /** The loop of main.go, run until a read fails. */
  function LegacyRelay(data: Bytes, end: ReadError): (r: LegacyResult)
    decreases |data|
    ensures Wire(r.packets) <= data
    ensures |r.dumps| == |r.packets|
    ensures r.exit == Crashed(ReadFailed(end))
  {
    match LegacyStep(data, end)
    case Halt(exit) => LegacyResult([], [], exit)
    case Forward(p, d, rest) =>
      var tail := LegacyRelay(rest, end);
      WireCons(p, tail.packets);
      LegacyResult([p] + tail.packets, [d] + tail.dumps, tail.exit)
  }

  /** Every packet the old loop forwards is well formed. */
  lemma {:induction false} LegacyPacketsValid(data: Bytes, end: ReadError)
    ensures forall q :: q in LegacyRelay(data, end).packets ==> ValidPacket(q)
    decreases |data|
  {
    LegacyFrameValid(data, end);
    match LegacyStep(data, end)
    case Halt(_) =>
    case Forward(p, d, rest) =>
      LegacyPacketsValid(rest, end);
      assert LegacyRelay(data, end).packets == [p] + LegacyRelay(rest, end).packets;
  }

  /** The name-only reports on a run of packets, in order. */
  function NamesOf(ps: seq<Packet>): (ds: seq<PduDump>)
    ensures |ds| == |ps|
  {
    if |ps| == 0 then [] else [NameOnly(ps[0].header)] + NamesOf(ps[1..])
  }

  /** The dump of main.go names each forwarded packet's type from its header byte alone. */
  lemma {:induction false} LegacyDumpsNameHeaders(data: Bytes, end: ReadError)
    ensures LegacyRelay(data, end).dumps == NamesOf(LegacyRelay(data, end).packets)
    decreases |data|
  {
    match LegacyStep(data, end)
    case Halt(_) =>
    case Forward(p, d, rest) =>
      LegacyDumpsNameHeaders(rest, end);
      var t := LegacyRelay(rest, end);
      assert PacketBytes(p)[0] == p.header;
      assert ([p] + t.packets)[1..] == t.packets;
  }

  /** Well-formed packets at the front of the stream are forwarded one by one, unchanged and
      in order. */
  lemma {:induction false} LegacyRelayPackets(ps: seq<Packet>, tail: Bytes, end: ReadError)
    requires forall i :: 0 <= i < |ps| ==> ValidPacket(ps[i])
    ensures LegacyRelay(Wire(ps) + tail, end).packets == ps + LegacyRelay(tail, end).packets
    decreases |ps|
  {
    if |ps| == 0 {
      assert Wire(ps) + tail == tail;
    } else {
      var p, more := ps[0], ps[1..];
      var rest := Wire(more) + tail;
      LegacyRelayPackets(more, tail, end);
      ConcatAssoc(PacketBytes(p), Wire(more), tail);
      LegacyOnPacket(p, rest, end);
      SeqChain(ps, p, more, LegacyRelay(tail, end).packets);
    }
  }

  /** A well-formed packet at the front of the stream is the first one the old loop writes. */
  lemma LegacyOnPacket(p: Packet, rest: Bytes, end: ReadError)
    requires ValidPacket(p)
    ensures LegacyRelay(PacketBytes(p) + rest, end).packets == [p] + LegacyRelay(rest, end).packets
  {
    var data := PacketBytes(p) + rest;
    FrameOnPacket(p, rest, end);
    LegacyFrameAgrees(data, end);
    LegacyFrameValid(data, end);
    AfterHeader(p, rest);
    assert !AllContinue(data[1..]) by {
      assert data[1..][|p.lengthField| - 1] == p.lengthField[|p.lengthField| - 1];
    }
    LegacyLengthAgrees(data[1..], end, 1, 0);
    ReadField(p.lengthField, p.payload + rest, end);
  }

  /** The round trip of main.go: a stream of k well-formed packets reaches the other side byte
      for byte, as exactly those k packets in order, and then the read of the next header
      fails and the process panics, even on a clean end of stream. */
  lemma LegacyRoundTrip(ps: seq<Packet>, end: ReadError)
    requires forall i :: 0 <= i < |ps| ==> ValidPacket(ps[i])
    ensures LegacyRelay(Wire(ps), end).packets == ps
    ensures LegacyRelay(Wire(ps), end).exit == Crashed(ReadFailed(end))
  {
    LegacyRelayPackets(ps, [], end);
    assert Wire(ps) + [] == Wire(ps);
  }

  /** On a well-formed stream whose every packet server/server.go's dumper accepts, both
      loops forward the same packets; only the ending differs: the server loop stops quietly
      at the clean end of the stream, the old one crashes. */
  lemma LegacyMatchesServer(ps: seq<Packet>, rec: Option<Recorder>)
    requires forall i :: 0 <= i < |ps| ==> ValidPacket(ps[i]) && DumpMqttPdu(PacketBytes(ps[i])).Ok?
    ensures LegacyRelay(Wire(ps), Eof).packets == Relay(Wire(ps), Eof, DumpMqttPdu, rec).packets
    ensures LegacyRelay(Wire(ps), Eof).exit == Crashed(ReadFailed(Eof))
    ensures Relay(Wire(ps), Eof, DumpMqttPdu, rec).exit == Stopped
  {
    LegacyRoundTrip(ps, Eof);
    RelayRoundTrip(ps, DumpMqttPdu, rec);
  }

  /** Where the loops part: a CONNECT with an empty payload is forwarded by the old loop,
      which only names the type, while the CONNECT decoding of server/server.go panics on it,
      so the server loop forwards nothing. */
  lemma LegacyForwardsWhatServerDrops(rec: Option<Recorder>)
    ensures LegacyRelay([0x10, 0x00], Eof).packets == [Packet(0x10, [0x00], [])]
    ensures Relay([0x10, 0x00], Eof, DumpMqttPdu, rec).packets == []
    ensures Relay([0x10, 0x00], Eof, DumpMqttPdu, rec).exit == Recovered(BufferEmpty)
  {
    var p := Packet(0x10, [0x00], []);
    assert IsLengthField(p.lengthField) && LengthValue(p.lengthField) == 0;
    assert PacketBytes(p) == [0x10, 0x00];
    assert Wire([p]) == PacketBytes(p) + Wire([]);
    assert Wire([p]) == [0x10, 0x00];
    LegacyRoundTrip([p], Eof);
    EmptyConnectPanics();
    StepOnPacket(p, [], Eof, DumpMqttPdu);
    assert PacketBytes(p) + [] == [0x10, 0x00];
  }

  /** A stream that ends inside a length field is never forwarded by the old loop, whatever
      the bytes of the field: the read error panics before the frame is complete. */
  lemma LegacyEofInLengthField(header: Byte, field: Bytes, end: ReadError)
    requires AllContinue(field)
    ensures LegacyRelay([header] + field, end).packets == []
    ensures LegacyRelay([header] + field, end).exit == Crashed(ReadFailed(end))
  {
    var data := [header] + field;
    assert data[1..] == field;
    LegacyLengthAgrees(field, end, 1, 0);
  }

  /** A payload cut short is never forwarded either. */
  lemma LegacyShortPayload(header: Byte, field: Bytes, partial: Bytes, end: ReadError)
    requires IsLengthField(field) && |partial| < LengthValue(field)
    ensures LegacyRelay([header] + field + partial, end).packets == []
    ensures LegacyRelay([header] + field + partial, end).exit == Crashed(ReadFailed(end))
  {
    var data := [header] + field + partial;
    assert data[1..] == field + partial;
    ReadField(field, partial, end);
    assert data[1..][|field|..] == partial;
    assert !AllContinue(field + partial) by {
      assert (field + partial)[|field| - 1] == field[|field| - 1];
    }
    LegacyLengthAgrees(field + partial, end, 1, 0);
  }
}

=== FILE: msg_types.dfy ===
/** The control packet type: the high nibble of the fixed-header byte (section 2.2.1 of
    MQTT 3.1.1), and the names the console dump prints for it. server/server.go and main.go
    carry identical copies of these definitions. */
module MsgTypes {
  import opened Outcomes

  const CONNECT: Byte := 0x01
  const CONNACK: Byte := 0x02
  const PUBLISH: Byte := 0x03
  const PUBACK: Byte := 0x04
  const PUBREC: Byte := 0x05
  const PUBREL: Byte := 0x06
  const PUBCOMP: Byte := 0x07
  const SUBSCRIBE: Byte := 0x08
  const SUBACK: Byte := 0x09
  const UNSUBSCRIBE: Byte := 0x0A
  const UNSUBACK: Byte := 0x0B
  const PINGREQ: Byte := 0x0C
  const PINGRESP: Byte := 0x0D
  const DISCONNECT: Byte := 0x0E

  /** `decode_msgtype`: the high nibble of the header byte. */
  function DecodeMsgType(header: Byte): (t: Byte)
    ensures t < 16
    ensures t as nat == header as nat / 16
  {
    (header & 0xF0) >> 4
  }

  /** The `msgTypeLookup` table read as a Go map: the reserved types 0x00 and 0x0F, and any
      value above 0x0F, have no entry and yield the zero value, the empty string. */
  function TypeName(t: Byte): (name: string)
    ensures name != "" <==> 1 <= t <= 14
  {
    match t
    case 0x01 => "CONNECT"
    case 0x02 => "CONNACK"
    case 0x03 => "PUBLISH"
    case 0x04 => "PUBACK"
    case 0x05 => "PUBREC"
    case 0x06 => "PUBREL"
    case 0x07 => "PUBCOMP"
    case 0x08 => "SUBSCRIBE"
    case 0x09 => "SUBACK"
    case 0x0A => "UNSUBSCRIBE"
    case 0x0B => "UNSUBACK"
    case 0x0C => "PINGREQ"
    case 0x0D => "PINGRESP"
    case 0x0E => "DISCONNECT"
    case _ => ""
  }

  /** The type depends on the high nibble and on nothing else. */
  lemma HighNibbleOnly(h1: Byte, h2: Byte)
    ensures DecodeMsgType(h1) == DecodeMsgType(h2) <==> h1 & 0xF0 == h2 & 0xF0
  {
  }

  /** A header built from a type and a flags nibble decodes back to that type. */
  lemma HeaderRoundTrip(t: Byte, flags: Byte)
    requires t < 16 && flags < 16
    ensures DecodeMsgType((t << 4) | flags) == t
  {
  }

  /** Different named types have different names. */
  lemma NamesDistinct(t1: Byte, t2: Byte)
    requires 1 <= t1 <= 14 && 1 <= t2 <= 14 && t1 != t2
    ensures TypeName(t1) != TypeName(t2)
  {
  }

  lemma Examples()
    ensures DecodeMsgType(0x10) == CONNECT && TypeName(DecodeMsgType(0x10)) == "CONNECT"
    ensures DecodeMsgType(0x30) == PUBLISH && TypeName(DecodeMsgType(0x30)) == "PUBLISH"
    ensures DecodeMsgType(0xE0) == DISCONNECT && TypeName(DecodeMsgType(0xE0)) == "DISCONNECT"
    ensures TypeName(DecodeMsgType(0x00)) == "" && TypeName(DecodeMsgType(0xF0)) == ""
  {
  }
}

=== FILE: outcomes.dfy ===
/** Bytes, read errors and the panic-style failures shared by every part of the proxy model.

    The Go code signals trouble in two ways: a reader returns an error value (io.EOF or some
    other error), and helpers `panic`. The model turns both into values. */
module Outcomes {

  type Byte = bv8
  type Bytes = seq<Byte>

  /** A number below 256 as a byte, built by counting up so that the solver never has to
      relate an integer to its bit pattern directly. */
  function ByteOf(x: nat): (b: Byte)
    requires x < 256
    ensures b as nat == x
  {
    if x == 0 then 0 else ByteOf(x - 1) + 1
  }

  /** What a reader reports once its bytes run out: a clean end of stream (io.EOF) or any
      other I/O error. A reader that has reported one keeps reporting it. */
  datatype ReadError = Eof | IoError

  /** The input of one relay direction: the bytes the peer sends, then how the stream ends. */
  datatype Source = Source(data: Bytes, end: ReadError)

  /** Why a Go `panic` was raised. */
  datatype PanicCause =
    | ReadFailed(err: ReadError)   // a read error re-raised as a panic
    | BufferEmpty                  // `getByte` on an exhausted bytes.Buffer
    | IndexOutOfRange              // indexing past the end of a slice

  /** A computation that either yields a value or panics; usable with `:-`. */
  datatype Result<+T> = Ok(value: T) | Panic(cause: PanicCause) {

    predicate IsFailure() {
      Panic?
    }

    function PropagateFailure<U>(): Result<U>
      requires Panic?
    {
      Panic(cause)
    }

    function Extract(): T
      requires Ok?
    {
      value
    }
  }

  datatype Option<+T> = None | Some(value: T)

  /** How one relay direction ends: the loop breaks normally, a panic is caught by the
      deferred `recover`, or a panic is not caught and takes the whole process down. */
  datatype Exit = Stopped | Recovered(cause: PanicCause) | Crashed(cause: PanicCause)
}

=== FILE: packets.dfy ===
/** One MQTT control packet as the frame reader cuts it out of a stream: the fixed-header
    byte, the remaining-length field, and exactly as many payload bytes as the field says. */
module Packets {
  import opened Outcomes
  import opened RemainingLength

  datatype Packet = Packet(header: Byte, lengthField: Bytes, payload: Bytes)

  /** A complete, well-formed packet. */
  predicate ValidPacket(p: Packet)
  {
    IsLengthField(p.lengthField) && |p.payload| == LengthValue(p.lengthField)
  }

  /** The bytes of a packet on the wire, in the order the reader meets them. */
  function PacketBytes(p: Packet): Bytes
  {
    [p.header] + p.lengthField + p.payload
  }

  /** What follows the header byte: the length field, then the payload. */
  lemma AfterHeader(p: Packet, tail: Bytes)
    ensures (PacketBytes(p) + tail)[0] == p.header
    ensures (PacketBytes(p) + tail)[1..] == p.lengthField + (p.payload + tail)
    ensures PacketBytes(p)[1..] == p.lengthField + p.payload
  {
  }

  /** The converse of `AfterHeader`: a header byte, `n` length bytes and `length` payload
      bytes cut from the front of a stream are a packet followed by the rest. */
  lemma Reassemble(data: Bytes, n: nat, length: nat)
    requires 1 + n + length <= |data|
    ensures data == PacketBytes(Packet(data[0], data[1..][..n], data[1..][n..][..length])) + data[1..][n..][length..]
  {
    var t := data[1..];
    var p := Packet(data[0], t[..n], t[n..][..length]);
    var tail := t[n..][length..];
    AfterHeader(p, tail);
    SplitAt(t, n);
    SplitAt(t[n..], length);
    SplitAt(data, 1);
    assert data[..1] == [data[0]];
    SplitAt(PacketBytes(p) + tail, 1);
    assert (PacketBytes(p) + tail)[..1] == [data[0]];
  }

  lemma SplitAt<T>(s: seq<T>, k: nat)
    requires k <= |s|
    ensures s == s[..k] + s[k..]
  {
  }

  lemma ConcatAssoc<T>(a: seq<T>, b: seq<T>, c: seq<T>)
    ensures a + (b + c) == (a + b) + c
  {
  }

  /** The bytes of several packets sent one after another. */
  function Wire(ps: seq<Packet>): Bytes
  {
    if |ps| == 0 then [] else PacketBytes(ps[0]) + Wire(ps[1..])
  }

  /** A packet sent first puts its bytes in front of the others. */
  lemma WireCons(p: Packet, ps: seq<Packet>)
    ensures Wire([p] + ps) == PacketBytes(p) + Wire(ps)
  {
    assert ([p] + ps)[1..] == ps;
  }

  /** The packets, each as the byte buffer the relay hands to its dumper, recorder and writer. */
  function Frames(ps: seq<Packet>): (fs: seq<Bytes>)
    ensures |fs| == |ps|
    ensures forall i :: 0 <= i < |ps| ==> fs[i] == PacketBytes(ps[i])
  {
    if |ps| == 0 then [] else [PacketBytes(ps[0])] + Frames(ps[1..])
  }

  lemma {:induction false} WireAppend(a: seq<Packet>, b: seq<Packet>)
    ensures Wire(a + b) == Wire(a) + Wire(b)
  {
    if |a| == 0 {
      assert a + b == b;
    } else {
      assert (a + b)[1..] == a[1..] + b;
      WireAppend(a[1..], b);
    }
  }

  /** One more packet sent puts its bytes after the others. */
  lemma WireSnoc(ps: seq<Packet>, p: Packet)
    ensures Wire(ps + [p]) == Wire(ps) + PacketBytes(p)
  {
    WireAppend(ps, [p]);
    assert Wire([p]) == PacketBytes(p) by { assert [p][1..] == []; }
  }

  lemma FramesSnoc(ps: seq<Packet>, p: Packet)
    ensures Frames(ps + [p]) == Frames(ps) + [PacketBytes(p)]
  {
    assert forall i :: 0 <= i < |ps| ==> (ps + [p])[i] == ps[i];
  }

  /** A packet with the given header and payload and the canonical length field. */
  function MakePacket(header: Byte, payload: Bytes): (p: Packet)
    ensures ValidPacket(p)
    ensures p.header == header && p.payload == payload
  {
    Packet(header, EncodeLength(|payload|), payload)
  }
}

=== FILE: proxify.dfy ===
/** `proxifyStream` of server/server.go written as the loops it is: an outer loop over
    packets and an inner loop over the bytes of the length field, on the bytes the reader
    still holds. Each method is proved to agree with the recursive definitions of the relay
    module. */
module Proxify {
  import opened Outcomes
  import opened RemainingLength
  import opened Packets
  import opened Dump
  import opened ServerRelay

  /** The length loop's result once the bytes before `start` have been accounted for. */
  function Shifted(r: LengthRead, k: nat): LengthRead
  {
    match r
    case LengthRead(n, v) => LengthRead(n + k, v)
    case LengthFailed(e) => LengthFailed(e)
  }

  /** The inner loop: reads the length field starting at `start`, multiplying by 128 per byte. */
  method ReadRemainingLength(data: Bytes, start: nat, end: ReadError) returns (r: LengthRead)
    requires start <= |data|
    ensures r == ReadLength(data[start..], end, 1, 0)
    ensures r.LengthRead? ==> start + r.size <= |data|
  {
    var i := start;
    var multiplier: nat := 1;
    var length: nat := 0;
    while true
      invariant start <= i <= |data|
      invariant Shifted(ReadLength(data[i..], end, multiplier, length), i - start) == ReadLength(data[start..], end, 1, 0)
      decreases |data| - i
    {
      if i == |data| {
        LengthLoopEnd(data, i, end, multiplier, length);
        match end
        case Eof => return LengthRead(i - start, length);
        case IoError => return LengthFailed(IoError);
      }
      var b := data[i];
      LengthLoopStep(data, i, end, multiplier, length, i - start);
      ghost var k := i - start;
      length := AddDigit(length, b, multiplier);
      multiplier := multiplier * 128;
      i := i + 1;
      if !Continues(b) {
        return LengthRead(i - start, length);
      }
      assert k + 1 == i - start;
    }
  }

  /** The running length after one more byte: its base-128 digit, weighted by the place
      value the loop has reached, is added to what the earlier bytes gave. */
  function AddDigit(length: nat, b: Byte, multiplier: nat): (sum: nat)
    ensures sum >= length
  {
    length + Digit(b) * multiplier
  }

  /** The reader runs dry inside the field: a clean end of stream keeps what was read. */
  lemma LengthLoopEnd(data: Bytes, i: nat, end: ReadError, multiplier: nat, length: nat)
    requires i == |data|
    ensures ReadLength(data[i..], end, multiplier, length)
            == if end == Eof then LengthRead(0, length) else LengthFailed(IoError)
  {
    assert data[i..] == [];
  }

  /** One pass of the inner loop: a byte with bit 7 clear closes the field, any other
      byte leaves the rest of the field to the next pass. */
  lemma LengthLoopStep(data: Bytes, i: nat, end: ReadError, multiplier: nat, length: nat, k: nat)
    requires i < |data|
    ensures var b := data[i];
            var length' := length + Digit(b) * multiplier;
            if Continues(b) then
              Shifted(ReadLength(data[i..], end, multiplier, length), k)
                == Shifted(ReadLength(data[i + 1..], end, multiplier * 128, length'), k + 1)
            else
              ReadLength(data[i..], end, multiplier, length) == LengthRead(1, length')
  {
    assert data[i..][0] == data[i];
    assert data[i..][1..] == data[i + 1..];
  }

  /** The reading half of the loop body: the header byte, the inner loop, then the payload. */
  method ReadFrameFrom(input: Bytes, end: ReadError) returns (f: FrameRead)
    ensures f == ReadFrame(input, end)
  {
    if |input| == 0 {
      return NoFrame(EndOn(end));
    }
    var lr := ReadRemainingLength(input, 1, end);
    if lr.LengthFailed? {
      return NoFrame(EndOn(lr.err));
    }
    var n, length := lr.size, lr.value;
    var field := input[1..][..n];
    var after := input[1..][n..];
    if |after| < length {
      return NoFrame(EndOn(end));
    }
    f := Frame(Packet(input[0], field, after[..length]), after[length..]);
  }

  /** What the relay does on the bytes `rest` the reader still holds, given the packets
      already written. */
  ghost predicate Progress(data: Bytes, end: ReadError, dumper: Dumper, rec: Option<Recorder>, done: seq<Packet>, rest: Bytes)
  {
    && data == Wire(done) + rest
    && Relay(data, end, dumper, rec).packets == done + Relay(rest, end, dumper, rec).packets
    && Relay(data, end, dumper, rec).exit == Relay(rest, end, dumper, rec).exit
  }

  lemma ProgressStart(data: Bytes, end: ReadError, dumper: Dumper, rec: Option<Recorder>)
    ensures Progress(data, end, dumper, rec, [], data)
  {
    assert Wire([]) + data == data;
  }

  /** The loop stops where `Relay` stops: everything `Relay` forwards has been written. */
  lemma ProgressHalt(data: Bytes, end: ReadError, dumper: Dumper, rec: Option<Recorder>, done: seq<Packet>, rest: Bytes, exit: Exit)
    requires Progress(data, end, dumper, rec, done, rest)
    requires ServerStep(rest, end, dumper) == Halt(exit)
    ensures Relay(data, end, dumper, rec).packets == done
    ensures Relay(data, end, dumper, rec).exit == exit
    ensures Wire(done) <= data
  {
    assert done + [] == done;
  }

  /** The loop's bookkeeping after one more packet is written. */
  lemma ProgressForward(data: Bytes, end: ReadError, dumper: Dumper, rec: Option<Recorder>,
                        done: seq<Packet>, rest: Bytes, p: Packet, d: PduDump, rest': Bytes)
    requires ServerStep(rest, end, dumper) == Forward(p, d, rest')
    requires Progress(data, end, dumper, rec, done, rest)
    ensures Progress(data, end, dumper, rec, done + [p], rest')
  {
    WireSnoc(done, p);
    ConcatAssoc(Wire(done), PacketBytes(p), rest');
    RelayForward(rest, end, dumper, rec, p, d, rest');
    ConcatAssoc(done, [p], Relay(rest', end, dumper, rec).packets);
  }

  /** The outer loop: frames, dumps, records and writes packets until a read ends it. It
      writes exactly the packets `Relay` forwards, records the same trace, ends the same way,
      and never writes a byte that was not read. */
  method ProxifyStream(src: Source, dumper: Dumper, rec: Option<Recorder>)
    returns (written: Bytes, recorded: seq<Bytes>, exit: Exit)
    ensures written == Wire(Relay(src.data, src.end, dumper, rec).packets)
    ensures recorded == Relay(src.data, src.end, dumper, rec).recorded
    ensures exit == Relay(src.data, src.end, dumper, rec).exit
    ensures written <= src.data
    ensures !exit.Crashed?
  {
    var data, end := src.data, src.end;
    var rest := data;
    written, recorded := [], [];
    ghost var done: seq<Packet> := [];
    ProgressStart(data, end, dumper, rec);
    while true
      invariant written == Wire(done)
      invariant recorded == (if rec.Some? && rec.value.writable then Frames(done) else [])
      invariant Progress(data, end, dumper, rec, done, rest)
      decreases |rest|
    {
      var f := ReadFrameFrom(rest, end);
      if f.NoFrame? {
        exit := f.exit;
        ProgressHalt(data, end, dumper, rec, done, rest, exit);
        break;
      }
      var frame := PacketBytes(f.packet);
      var dumped := dumper(frame);
      if dumped.Panic? {
        exit := Recovered(dumped.cause);
        ProgressHalt(data, end, dumper, rec, done, rest, exit);
        break;
      }
      if rec.Some? {
        recorded := recorded + SaveMessage(rec.value, frame);
      }
      ProgressForward(data, end, dumper, rec, done, rest, f.packet, dumped.value, f.rest);
      FramesSnoc(done, f.packet);
      WireSnoc(done, f.packet);
      written := written + frame;
      done := done + [f.packet];
      rest := f.rest;
    }
  }
}

=== FILE: remaining_length.dfy ===
/** The "Remaining Length" field of the MQTT 3.1.1 fixed header (section 2.2.3 of the MQTT
    3.1.1 standard) as the proxy's frame reader accepts it: base-128 digits, least significant
    first, bit 7 of each byte saying that another byte follows. The reader sets no limit on
    the number of bytes. */
module RemainingLength {
  import opened Outcomes

  /** Bit 7 set: another length byte follows. */
  predicate Continues(b: Byte)
  {
    b & 0x80 != 0
  }

  /** The base-128 digit a length byte carries. */
  function Digit(b: Byte): (d: nat)
    ensures d < 128
  {
    (b & 0x7F) as nat
  }

  predicate AllContinue(f: Bytes)
  {
    forall i :: 0 <= i < |f| ==> Continues(f[i])
  }

  /** A complete length field: bytes with bit 7 set, closed by exactly one byte with bit 7 clear. */
  predicate IsLengthField(f: Bytes)
  {
    && |f| >= 1
    && !Continues(f[|f| - 1])
    && AllContinue(f[..|f| - 1])
  }

  /** The value a field denotes: the sum of digit(f[i]) * 128^i. */
  function LengthValue(f: Bytes): nat
  {
    if |f| == 0 then 0 else Digit(f[0]) + 128 * LengthValue(f[1..])
  }

  function Pow128(k: nat): (p: nat)
    ensures p >= 1
  {
    if k == 0 then 1 else 128 * Pow128(k - 1)
  }

  /** What the length loop leaves behind: how many bytes it consumed and the length it
      accumulated, or the read error that made it panic. */
  datatype LengthRead = LengthRead(size: nat, value: nat) | LengthFailed(err: ReadError)

  /** The length loop of `proxifyStream` in server/server.go. `data` is what the reader still
      holds, `end` what it reports after that; `multiplier` and `length` are the loop variables.
      A clean end of stream only breaks the loop (the bytes read so far stand); any other read
      error panics. */
  function ReadLength(data: Bytes, end: ReadError, multiplier: nat, length: nat): (r: LengthRead)
    decreases |data|
    ensures r.LengthFailed? ==> r.err == IoError
    ensures r.LengthRead? ==> r.size <= |data|
  {
    if |data| == 0 then
      match end
      case Eof => LengthRead(0, length)
      case IoError => LengthFailed(IoError)
    else
      var b := data[0];
      var length' := length + Digit(b) * multiplier;
      if !Continues(b) then
        LengthRead(1, length')
      else
        match ReadLength(data[1..], end, multiplier * 128, length')
        case LengthFailed(e) => LengthFailed(e)
        case LengthRead(n, v) => LengthRead(n + 1, v)
  }

  /** The loop stops after the first byte with bit 7 clear, which closes a complete field.
      Only a stream that ends inside the field stops it early: a clean end of stream keeps
      the bytes read so far, any other error panics. */
  lemma {:induction false} ReadLengthShape(data: Bytes, end: ReadError, multiplier: nat, length: nat)
    ensures var r := ReadLength(data, end, multiplier, length);
            && (r.LengthFailed? <==> AllContinue(data) && end == IoError)
            && (r.LengthRead? ==>
                  || IsLengthField(data[..r.size])
                  || (r.size == |data| && AllContinue(data) && end == Eof))
    decreases |data|
  {
    if |data| > 0 {
      var b := data[0];
      var length' := length + Digit(b) * multiplier;
      AllContinueCons(data);
      if !Continues(b) {
        assert data[..1] == [b];
      } else {
        ReadLengthShape(data[1..], end, multiplier * 128, length');
        var r' := ReadLength(data[1..], end, multiplier * 128, length');
        if r'.LengthRead? {
          FieldCons(data, r'.size, end);
        }
      }
    }
  }

  /** The loop's running sum is the value of the bytes it consumed, scaled by the multiplier
      it started from. */
  lemma {:induction false} ReadLengthValue(data: Bytes, end: ReadError, multiplier: nat, length: nat)
    requires ReadLength(data, end, multiplier, length).LengthRead?
    ensures var r := ReadLength(data, end, multiplier, length);
            r.value == length + multiplier * LengthValue(data[..r.size])
    decreases |data|
  {
    var r := ReadLength(data, end, multiplier, length);
    if |data| == 0 {
      assert data[..r.size] == [];
    } else {
      var b := data[0];
      var length' := length + Digit(b) * multiplier;
      if !Continues(b) {
        assert data[..1] == [b];
        assert LengthValue([b]) == Digit(b) by { assert [b][1..] == []; }
        ShiftValue(multiplier, Digit(b), 0, length);
      } else {
        var r' := ReadLength(data[1..], end, multiplier * 128, length');
        ReadLengthValue(data[1..], end, multiplier * 128, length');
        var n := r'.size;
        assert r == LengthRead(n + 1, r'.value);
        ValueCons(data, n);
        ShiftValue(multiplier, Digit(b), LengthValue(data[1..][..n]), length);
      }
    }
  }

  lemma AllContinueCons(data: Bytes)
    requires |data| >= 1
    ensures AllContinue(data) <==> Continues(data[0]) && AllContinue(data[1..])
  {
    if Continues(data[0]) && AllContinue(data[1..]) {
      forall i | 1 <= i < |data| ensures Continues(data[i]) {
        assert data[i] == data[1..][i - 1];
      }
    }
  }

  lemma ValueCons(data: Bytes, n: nat)
    requires |data| >= 1 && n <= |data| - 1
    ensures LengthValue(data[..n + 1]) == Digit(data[0]) + 128 * LengthValue(data[1..][..n])
  {
    assert data[..n + 1][1..] == data[1..][..n];
  }

  /** A byte with bit 7 set in front of what the rest of the loop read. */
  lemma FieldCons(data: Bytes, n: nat, end: ReadError)
    requires |data| >= 1 && Continues(data[0]) && n <= |data| - 1
    requires || IsLengthField(data[1..][..n])
             || (n == |data| - 1 && AllContinue(data[1..]) && end == Eof)
    ensures || IsLengthField(data[..n + 1])
            || (n + 1 == |data| && AllContinue(data) && end == Eof)
  {
    var f := data[..n + 1];
    assert f[1..] == data[1..][..n];
    AllContinueCons(data);
    if IsLengthField(data[1..][..n]) {
      var g := data[1..][..n];
      assert f[|f| - 1] == g[|g| - 1];
      assert f[..|f| - 1] == [data[0]] + g[..|g| - 1];
      AllContinueCons(f[..|f| - 1]);
    }
  }

  /** The arithmetic step of the length loop: one more digit at the current multiplier. */
  lemma ShiftValue(m: nat, d: nat, rest: nat, length: nat)
    ensures length + d * m + m * 128 * rest == length + m * (d + 128 * rest)
  {
    calc {
      m * (d + 128 * rest);
      m * d + m * (128 * rest);
      { assert m * (128 * rest) == m * 128 * rest; }
      d * m + m * 128 * rest;
    }
  }

  /** A complete field followed by anything is read to its last byte and no further. */
  lemma {:induction false} ReadLengthOfField(f: Bytes, tail: Bytes, end: ReadError, multiplier: nat, length: nat)
    requires IsLengthField(f)
    ensures ReadLength(f + tail, end, multiplier, length).LengthRead?
    ensures ReadLength(f + tail, end, multiplier, length).size == |f|
    decreases |f|
  {
    var data := f + tail;
    var b := f[0];
    assert data[0] == b;
    var length' := length + Digit(b) * multiplier;
    if |f| > 1 {
      assert Continues(b) by { assert f[..|f| - 1][0] == b; }
      var f' := f[1..];
      assert IsLengthField(f') by {
        assert f'[..|f'| - 1] == f[..|f| - 1][1..];
        assert f'[|f'| - 1] == f[|f| - 1];
      }
      assert data[1..] == f' + tail;
      ReadLengthOfField(f', tail, end, multiplier * 128, length');
    }
  }

  /** Reading a complete field followed by anything yields the field's value. */
  lemma ReadField(f: Bytes, tail: Bytes, end: ReadError)
    requires IsLengthField(f)
    ensures ReadLength(f + tail, end, 1, 0) == LengthRead(|f|, LengthValue(f))
  {
    ReadLengthOfField(f, tail, end, 1, 0);
    ReadLengthValue(f + tail, end, 1, 0);
    assert (f + tail)[..|f|] == f;
  }

  /** When the stream ends cleanly inside a field, the loop keeps every byte it read and
      the length those bytes add up to. */
  lemma ReadUnfinishedField(f: Bytes)
    requires AllContinue(f)
    ensures ReadLength(f, Eof, 1, 0) == LengthRead(|f|, LengthValue(f))
  {
    ReadLengthShape(f, Eof, 1, 0);
    ReadLengthValue(f, Eof, 1, 0);
    assert f[..|f|] == f;
  }

  /** A field ends at its first byte with bit 7 clear, so no complete field is a proper
      prefix of another. */
  lemma {:induction false} FieldPrefixUnique(f: Bytes, g: Bytes)
    requires IsLengthField(f) && IsLengthField(g) && |f| <= |g| && g[..|f|] == f
    ensures f == g
  {
  }

  /** The canonical MQTT encoding of a length: the fewest base-128 digits
      (`EncodeLengthShortest`). It is the
      partner of the reader: a sender produces it and the reader takes it back apart. */
  function EncodeLength(n: nat): (f: Bytes)
    ensures IsLengthField(f)
    ensures LengthValue(f) == n
    decreases n
  {
    if n < 128 then
      DigitByte(n);
      [ByteOf(n)]
    else
      var rest := EncodeLength(n / 128);
      var b := LeadByte(n);
      EncodeStep(n, b, rest);
      [b] + rest
  }

  /** The round trip of the length field: whatever follows it, the reader consumes exactly
      the canonical encoding of a length and gives that length back. */
  lemma LengthRoundTrip(n: nat, tail: Bytes, end: ReadError)
    ensures ReadLength(EncodeLength(n) + tail, end, 1, 0) == LengthRead(|EncodeLength(n)|, n)
  {
    ReadField(EncodeLength(n), tail, end);
  }

  /** The first byte of the encoding of a number of at least 128: its low digit, flagged. */
  function LeadByte(n: nat): (b: Byte)
    requires n >= 128
    ensures Continues(b) && Digit(b) == n % 128
  {
    DigitByte(n % 128 + 128);
    ByteOf(n % 128 + 128)
  }

  lemma EncodeStep(n: nat, b: Byte, rest: Bytes)
    requires n >= 128 && Continues(b) && Digit(b) == n % 128
    requires IsLengthField(rest) && LengthValue(rest) == n / 128
    ensures IsLengthField([b] + rest) && LengthValue([b] + rest) == n
  {
    var f := [b] + rest;
    assert f[1..] == rest;
    assert f[..|f| - 1] == [b] + rest[..|rest| - 1];
  }

  /** How a number below 256 sits in a length byte. */
  lemma DigitByte(x: nat)
    requires x < 256
    ensures Digit(ByteOf(x)) == x % 128
    ensures Continues(ByteOf(x)) <==> x >= 128
  {
    ByteArith(ByteOf(x));
  }

  /** The bit operations of the length loop, read as arithmetic on the byte's value. */
  lemma ByteArith(b: Byte)
    ensures Digit(b) == b as nat % 128
    ensures Continues(b) <==> b as nat >= 128
  {
  }

  /** The canonical encoding needs at most k bytes exactly below 128^k; with k = 4 that is
      the 268,435,455 maximum of the standard. */
  lemma {:induction false} EncodeLengthSize(n: nat, k: nat)
    requires k >= 1
    ensures |EncodeLength(n)| <= k <==> n < Pow128(k)
    decreases n
  {
    PowGrows(k);
    EncodeLengthCount(n);
    if n >= 128 && k > 1 {
      var p := Pow128(k - 1);
      assert Pow128(k) == 128 * p;
      EncodeLengthSize(n / 128, k - 1);
      DivBound(n, p);
    }
  }

  /** Each step of the encoder adds exactly one byte. */
  lemma EncodeLengthCount(n: nat)
    ensures n < 128 ==> |EncodeLength(n)| == 1
    ensures n >= 128 ==> |EncodeLength(n)| == 1 + |EncodeLength(n / 128)| >= 2
  {
  }

  lemma DivBound(n: nat, p: nat)
    ensures n < 128 * p <==> n / 128 < p
  {
  }

  lemma {:induction false} PowGrows(k: nat)
    requires k >= 1
    ensures Pow128(k) >= 128
  {
    if k > 1 { PowGrows(k - 1); }
  }

  lemma MaximumFourByteLength()
    ensures |EncodeLength(268435455)| == 4
    ensures |EncodeLength(268435456)| == 5
  {
    assert Pow128(4) == 268435456;
    assert Pow128(5) == 34359738368;
    EncodeLengthSize(268435455, 4);
    EncodeLengthSize(268435455, 3);
    EncodeLengthSize(268435456, 4);
    EncodeLengthSize(268435456, 5);
  }

  /** A field of k bytes carries less than 128^k, whatever its bytes: each byte adds at
      most 127 at its place value. */
  lemma {:induction false} LengthValueBound(f: Bytes)
    ensures LengthValue(f) < Pow128(|f|)
  {
    if |f| > 0 {
      LengthValueBound(f[1..]);
      assert Pow128(|f|) == 128 * Pow128(|f| - 1);
    }
  }

  /** No field the reader accepts is shorter than the canonical encoding of its value,
      including non-canonical ones such as [0x80, 0x00]. */
  lemma EncodeLengthShortest(f: Bytes)
    requires IsLengthField(f)
    ensures |EncodeLength(LengthValue(f))| <= |f|
  {
    LengthValueBound(f);
    EncodeLengthSize(LengthValue(f), |f|);
  }

  /** Four bytes or fewer carry at most 268,435,455, the maximum of section 2.2.3 of
      MQTT 3.1.1. */
  lemma FourBytesMax(f: Bytes)
    requires |f| <= 4
    ensures LengthValue(f) <= 268435455
  {
    LengthValueBound(f);
    PowMonotone(|f|, 4);
    assert Pow128(4) == 268435456;
  }

  lemma {:induction false} PowMonotone(j: nat, k: nat)
    requires j <= k
    ensures Pow128(j) <= Pow128(k)
    decreases k
  {
    if j < k {
      PowMonotone(j, k - 1);
    }
  }

  /** The worked examples of section 2.2.3 of MQTT 3.1.1, and a fifth length byte that the
      reader accepts although the standard forbids it. */
  lemma WorkedExampleOneByte(end: ReadError)
    ensures ReadLength([0x00], end, 1, 0) == LengthRead(1, 0)
    ensures ReadLength([0x7F], end, 1, 0) == LengthRead(1, 127)
  {
    ByteArith(0x00);
    ByteArith(0x7F);
    Example([0x00], 0, end);
    Example([0x7F], 127, end);
  }

  lemma WorkedExampleTwoBytes(end: ReadError)
    ensures ReadLength([0x80, 0x01], end, 1, 0) == LengthRead(2, 128)
  {
    var f: Bytes := [0x80, 0x01];
    ByteArith(0x80);
    ByteArith(0x01);
    assert f[1..] == [0x01];
    Example(f, 128, end);
  }

  lemma WorkedExampleFourBytes(end: ReadError)
    ensures ReadLength([0xFF, 0xFF, 0xFF, 0x7F], end, 1, 0) == LengthRead(4, 268435455)
  {
    var f: Bytes := [0xFF, 0xFF, 0xFF, 0x7F];
    ByteArith(0xFF);
    ByteArith(0x7F);
    assert f[1..][1..][1..] == [0x7F];
    assert LengthValue(f[1..][1..][1..]) == 127;
    assert LengthValue(f[1..][1..]) == 127 + 128 * 127;
    Example(f, 268435455, end);
  }

  lemma NoLimitOnLengthBytes(end: ReadError)
    ensures ReadLength([0x80, 0x80, 0x80, 0x80, 0x01], end, 1, 0) == LengthRead(5, 268435456)
  {
    var f: Bytes := [0x80, 0x80, 0x80, 0x80, 0x01];
    ByteArith(0x80);
    ByteArith(0x01);
    assert f[1..][1..][1..][1..] == [0x01];
    assert LengthValue(f[1..][1..][1..][1..]) == 1;
    assert LengthValue(f[1..][1..][1..]) == 128;
    Example(f, 268435456, end);
  }

  lemma Example(f: Bytes, v: nat, end: ReadError)
    requires |f| >= 1 && f[|f| - 1] as nat < 128
    requires forall i :: 0 <= i < |f| - 1 ==> f[i] as nat >= 128
    requires v == LengthValue(f)
    ensures ReadLength(f, end, 1, 0) == LengthRead(|f|, v)
  {
    forall i | 0 <= i < |f| { ByteArith(f[i]); }
    assert f + [] == f;
    ReadField(f, [], end);
  }
}

=== FILE: server_relay.dfy ===
/** The relay loop `proxifyStream` of server/server.go, one direction of a session. Each
    iteration reads a header byte, the remaining-length field and exactly `length` more
    bytes into a fresh buffer, calls the dumper on the buffer, hands it to the recorder if
    there is one, and writes it to the other side. A clean end of stream breaks the loop;
    any other read error panics, and the deferred handler recovers and closes the recorder.
    The dumper is a parameter, as in the source; a panic inside it is recovered too. */
module ServerRelay {
  import opened Outcomes
  import opened RemainingLength
  import opened Packets
  import opened Dump

  /** The dumper callback: reads one buffer, reports on it, and may panic. */
  type Dumper = Bytes -> Result<PduDump>

  /** `eofOrPanic`: no error continues (false), io.EOF breaks (true), any other error panics. */
  function EofOrPanic(err: Option<ReadError>): (r: Result<bool>)
    ensures r == Ok(false) <==> err.None?
    ensures r == Ok(true) <==> err == Some(Eof)
    ensures r.Panic? <==> err == Some(IoError)
    ensures r.Panic? ==> r.cause == ReadFailed(IoError)
  {
    match err
    case None => Ok(false)
    case Some(Eof) => Ok(true)
    case Some(IoError) => Panic(ReadFailed(IoError))
  }

  /** How the loop ends when a read reports `end`: `eofOrPanic` breaks out, or its panic is
      recovered by the deferred handler. */
  function EndOn(end: ReadError): (e: Exit)
    ensures e == Stopped <==> end == Eof
    ensures e != Stopped ==> e == Recovered(ReadFailed(IoError))
  {
    match EofOrPanic(Some(end))
    case Ok(_) => Stopped
    case Panic(cause) => Recovered(cause)
  }

  /** What the reading half of one iteration yields: a whole packet and the stream after
      it, or the way the loop ends because a read came back with an error. */
  datatype FrameRead = Frame(packet: Packet, rest: Bytes) | NoFrame(exit: Exit)

  /** The reading half of one iteration over the bytes `data` still to be read, followed by
      `end`: the header byte, the length loop, then `io.CopyN` of `length` bytes. Each read
      error goes through `eofOrPanic`; a payload cut short by the end of the stream is
      dropped. */
  function ReadFrame(data: Bytes, end: ReadError): (r: FrameRead)
    ensures data == [] ==> r == NoFrame(EndOn(end))
    ensures r.NoFrame? ==> r.exit == EndOn(end)
    ensures r.Frame? ==> data == PacketBytes(r.packet) + r.rest
    ensures r.Frame? ==> |r.packet.payload| == LengthValue(r.packet.lengthField)
    ensures r.Frame? ==>
              || IsLengthField(r.packet.lengthField)
              || (r.rest == [] && end == Eof && AllContinue(r.packet.lengthField))
    ensures r.Frame? && !IsLengthField(r.packet.lengthField) ==> r.packet.payload == []
  {
    if |data| == 0 then
      NoFrame(EndOn(end))
    else
      ReadLengthShape(data[1..], end, 1, 0);
      match ReadLength(data[1..], end, 1, 0)
      case LengthFailed(e) => NoFrame(EndOn(e))
      case LengthRead(n, length) =>
        var field := data[1..][..n];
        var after := data[1..][n..];
        if |after| < length then
          NoFrame(EndOn(end))
        else
          assert !IsLengthField(field) ==> after == [];
          ReadLengthValue(data[1..], end, 1, 0);
          Reassemble(data, n, length);
          Frame(Packet(data[0], field, after[..length]), after[length..])
  }

  /** One iteration: the packet forwarded and what remains of the stream, or how the loop ends. */
  datatype Step = Forward(packet: Packet, dump: PduDump, rest: Bytes) | Halt(exit: Exit)

  /** One iteration of the loop: read a packet, hand it to the dumper, forward it. A panic
      in the dumper is caught by the deferred handler and ends the loop. */
  function ServerStep(data: Bytes, end: ReadError, dumper: Dumper): (r: Step)
    ensures r.Forward? ==> ReadFrame(data, end) == Frame(r.packet, r.rest)
    ensures r.Forward? ==> dumper(PacketBytes(r.packet)) == Ok(r.dump)
    ensures r.Halt? && ReadFrame(data, end).NoFrame? ==> r.exit == EndOn(end)
    ensures r.Halt? && ReadFrame(data, end).Frame? ==>
              r.exit.Recovered? && dumper(PacketBytes(ReadFrame(data, end).packet)) == Panic(r.exit.cause)
  {
    match ReadFrame(data, end)
    case NoFrame(exit) => Halt(exit)
    case Frame(packet, rest) =>
      match dumper(PacketBytes(packet))
      case Panic(cause) => Halt(Recovered(cause))
      case Ok(d) => Forward(packet, d, rest)
  }

  /** A complete packet at the front of the stream is read whole, and no further. */
  lemma FrameOnPacket(p: Packet, tail: Bytes, end: ReadError)
    requires ValidPacket(p)
    ensures ReadFrame(PacketBytes(p) + tail, end) == Frame(p, tail)
  {
    var data := PacketBytes(p) + tail;
    AfterHeader(p, tail);
    ReadField(p.lengthField, p.payload + tail, end);
    var after := data[1..][|p.lengthField|..];
    assert after == p.payload + tail;
    assert after[..|p.payload|] == p.payload;
    assert after[|p.payload|..] == tail;
  }

  /** A complete packet at the front of the stream is read whole and handed to the dumper;
      it is forwarded unless the dumper panics. */
  lemma StepOnPacket(p: Packet, tail: Bytes, end: ReadError, dumper: Dumper)
    requires ValidPacket(p)
    ensures var r := ServerStep(PacketBytes(p) + tail, end, dumper);
            match dumper(PacketBytes(p))
            case Ok(d) => r == Forward(p, d, tail)
            case Panic(cause) => r == Halt(Recovered(cause))
  {
    FrameOnPacket(p, tail, end);
  }

  /** The recorder of a session; `writable` says whether its file writes succeed. */
  datatype Recorder = Recorder(writable: bool)

  /** `SaveMessage`: the trace records that reach the file, none when a write fails. */
  function SaveMessage(rec: Recorder, frame: Bytes): (saved: seq<Bytes>)
    ensures saved <= [frame]
    ensures saved == [frame] <==> rec.writable
  {
    if rec.writable then [frame] else []
  }

  /** Everything one direction does: the packets written to the other side in order, the
      dumps, the trace records that reach the file, how the loop ended, and how many times
      the recorder was closed. */
  datatype RelayResult = RelayResult(
    packets: seq<Packet>,
    dumps: seq<PduDump>,
    recorded: seq<Bytes>,
    exit: Exit,
    recorderCloses: nat)

  /** The relay loop, run until it ends. */
  function Relay(data: Bytes, end: ReadError, dumper: Dumper, rec: Option<Recorder>): (r: RelayResult)
    decreases |data|
    ensures Wire(r.packets) <= data
    ensures !r.exit.Crashed?
    ensures r.recorderCloses == (if rec.Some? then 1 else 0)
    ensures r.recorded == (if rec.Some? && rec.value.writable then Frames(r.packets) else [])
  {
    match ServerStep(data, end, dumper)
    case Halt(exit) => RelayResult([], [], [], exit, if rec.Some? then 1 else 0)
    case Forward(p, d, rest) =>
      var tail := Relay(rest, end, dumper, rec);
      var saved := if rec.Some? then SaveMessage(rec.value, PacketBytes(p)) else [];
      WireCons(p, tail.packets);
      assert Frames([p] + tail.packets) == [PacketBytes(p)] + Frames(tail.packets) by {
        assert ([p] + tail.packets)[1..] == tail.packets;
      }
      RelayResult([p] + tail.packets, [d] + tail.dumps, saved + tail.recorded, tail.exit, tail.recorderCloses)
  }

  /** A forwarding step puts its packet first and leaves the rest to the loop. */
  lemma RelayForward(data: Bytes, end: ReadError, dumper: Dumper, rec: Option<Recorder>, p: Packet, d: PduDump, rest: Bytes)
    requires ServerStep(data, end, dumper) == Forward(p, d, rest)
    ensures Relay(data, end, dumper, rec).packets == [p] + Relay(rest, end, dumper, rec).packets
    ensures Relay(data, end, dumper, rec).exit == Relay(rest, end, dumper, rec).exit
  {
  }

  /** Every forwarded packet carries exactly as many payload bytes as its length field
      announces; a payload cut short by the end of the stream is never forwarded. */
  lemma {:induction false} ForwardedPayloadsComplete(data: Bytes, end: ReadError, dumper: Dumper, rec: Option<Recorder>)
    ensures forall q :: q in Relay(data, end, dumper, rec).packets ==> |q.payload| == LengthValue(q.lengthField)
    decreases |data|
  {
    match ServerStep(data, end, dumper)
    case Halt(_) =>
    case Forward(p, d, rest) =>
      ForwardedPayloadsComplete(rest, end, dumper, rec);
      assert Relay(data, end, dumper, rec).packets == [p] + Relay(rest, end, dumper, rec).packets;
  }

  /** `ds` are the dumper's reports on `ps`, one per packet, in order. */
  predicate DumpedAs(dumper: Dumper, ps: seq<Packet>, ds: seq<PduDump>)
  {
    && |ps| == |ds|
    && (|ps| == 0 || (dumper(PacketBytes(ps[0])) == Ok(ds[0]) && DumpedAs(dumper, ps[1..], ds[1..])))
  }

  /** Every packet is handed to the dumper before it is written, and the dumper sees
      exactly the bytes that are written. */
  lemma {:induction false} EveryForwardedPacketDumped(data: Bytes, end: ReadError, dumper: Dumper, rec: Option<Recorder>)
    ensures DumpedAs(dumper, Relay(data, end, dumper, rec).packets, Relay(data, end, dumper, rec).dumps)
    decreases |data|
  {
    match ServerStep(data, end, dumper)
    case Halt(_) =>
    case Forward(p, d, rest) =>
      EveryForwardedPacketDumped(rest, end, dumper, rec);
      var r := Relay(data, end, dumper, rec);
      var t := Relay(rest, end, dumper, rec);
      assert r.packets == [p] + t.packets && r.dumps == [d] + t.dumps;
      assert r.packets[1..] == t.packets && r.dumps[1..] == t.dumps;
  }

  /** Every packet is well formed and the dumper does not panic on it. */
  predicate AllForwardable(ps: seq<Packet>, dumper: Dumper)
  {
    |ps| == 0 || (ValidPacket(ps[0]) && dumper(PacketBytes(ps[0])).Ok? && AllForwardable(ps[1..], dumper))
  }

  lemma {:induction false} AllForwardableEach(ps: seq<Packet>, dumper: Dumper)
    requires forall i :: 0 <= i < |ps| ==> ValidPacket(ps[i]) && dumper(PacketBytes(ps[i])).Ok?
    ensures AllForwardable(ps, dumper)
  {
    if |ps| > 0 {
      assert forall i :: 0 <= i < |ps[1..]| ==> ps[1..][i] == ps[i + 1];
      AllForwardableEach(ps[1..], dumper);
    }
  }

  /** Well-formed packets at the front of the stream are forwarded one by one, unchanged and
      in order, before the loop goes on with whatever follows them. */
  lemma {:induction false} RelayPackets(ps: seq<Packet>, tail: Bytes, end: ReadError, dumper: Dumper, rec: Option<Recorder>)
    requires AllForwardable(ps, dumper)
    ensures Relay(Wire(ps) + tail, end, dumper, rec).packets == ps + Relay(tail, end, dumper, rec).packets
    ensures Relay(Wire(ps) + tail, end, dumper, rec).exit == Relay(tail, end, dumper, rec).exit
    decreases |ps|
  {
    if |ps| == 0 {
      assert Wire(ps) + tail == tail;
    } else {
      var p, more := ps[0], ps[1..];
      var rest := Wire(more) + tail;
      RelayPackets(more, tail, end, dumper, rec);
      ConcatAssoc(PacketBytes(p), Wire(more), tail);
      RelayOnPacket(p, rest, end, dumper, rec);
      SeqChain(ps, p, more, Relay(tail, end, dumper, rec).packets);
    }
  }

  lemma SeqChain<T>(s: seq<T>, x: T, more: seq<T>, t: seq<T>)
    requires |s| > 0 && x == s[0] && more == s[1..]
    ensures [x] + (more + t) == s + t
  {
    assert s == [x] + more;
  }

  /** A forwardable packet at the front of the stream is the first packet written, and the
      loop then carries on with the rest of the stream. */
  lemma RelayOnPacket(p: Packet, rest: Bytes, end: ReadError, dumper: Dumper, rec: Option<Recorder>)
    requires ValidPacket(p) && dumper(PacketBytes(p)).Ok?
    ensures Relay(PacketBytes(p) + rest, end, dumper, rec).packets == [p] + Relay(rest, end, dumper, rec).packets
    ensures Relay(PacketBytes(p) + rest, end, dumper, rec).exit == Relay(rest, end, dumper, rec).exit
  {
    StepOnPacket(p, rest, end, dumper);
  }

  /** The round trip: a stream of k well-formed packets followed by a clean end of stream
      reaches the other side byte for byte, as exactly those k packets in order, and the
      loop then ends normally. */
  lemma RelayRoundTrip(ps: seq<Packet>, dumper: Dumper, rec: Option<Recorder>)
    requires forall i :: 0 <= i < |ps| ==> ValidPacket(ps[i]) && dumper(PacketBytes(ps[i])).Ok?
    ensures Relay(Wire(ps), Eof, dumper, rec).packets == ps
    ensures Wire(Relay(Wire(ps), Eof, dumper, rec).packets) == Wire(ps)
    ensures Relay(Wire(ps), Eof, dumper, rec).exit == Stopped
  {
    AllForwardableEach(ps, dumper);
    RelayPackets(ps, [], Eof, dumper, rec);
    EofOnHeader(dumper, rec);
    assert Wire(ps) + [] == Wire(ps);
    assert ps + [] == ps;
  }

  /** End of stream on the header byte: nothing more is written and the loop breaks. */
  lemma EofOnHeader(dumper: Dumper, rec: Option<Recorder>)
    ensures Relay([], Eof, dumper, rec).packets == [] && Relay([], Eof, dumper, rec).exit == Stopped
  {
  }

  /** A payload shorter than its declared length is neither dumped nor forwarded: a clean
      end of stream stops the loop quietly, any other error is recovered. */
  lemma ShortPayloadDropped(header: Byte, field: Bytes, partial: Bytes, end: ReadError, dumper: Dumper, rec: Option<Recorder>)
    requires IsLengthField(field) && |partial| < LengthValue(field)
    ensures var r := Relay([header] + field + partial, end, dumper, rec);
            r.packets == [] && r.dumps == [] && r.recorded == [] && r.exit == EndOn(end)
  {
    var data := [header] + field + partial;
    assert data[1..] == field + partial;
    ReadField(field, partial, end);
    assert data[1..][|field|..] == partial;
  }

  /** End of stream inside the length field only breaks the inner loop. With nothing
      accumulated (every byte 0x80) the partial frame is still handed to the dumper and,
      unless the dumper panics, forwarded; the next header read then ends the loop. */
  lemma EofInLengthField(header: Byte, field: Bytes, dumper: Dumper, rec: Option<Recorder>)
    requires forall i :: 0 <= i < |field| ==> field[i] == 0x80
    ensures var r := Relay([header] + field, Eof, dumper, rec);
            var frame := [header] + field;
            match dumper(frame)
            case Ok(d) => r.packets == [Packet(header, field, [])] && r.dumps == [d] && r.exit == Stopped
            case Panic(cause) => r.packets == [] && r.exit == Recovered(cause)
  {
    var data := [header] + field;
    assert data[1..] == field;
    ZeroField(field);
    ReadUnfinishedField(field);
    var p := Packet(header, field, []);
    assert PacketBytes(p) == data;
    assert data[1..][..|field|] == field && data[1..][|field|..] == [];
    var step := ServerStep(data, Eof, dumper);
    match dumper(data)
    case Ok(d) =>
      assert step == Forward(p, d, []);
    case Panic(cause) =>
      assert step == Halt(Recovered(cause));
  }

  /** A clean end inside a length field whose bytes already add up to more than zero: the
      payload read finds no bytes, so nothing is dumped or forwarded and the loop stops. */
  lemma EofInNonzeroField(header: Byte, field: Bytes, dumper: Dumper, rec: Option<Recorder>)
    requires AllContinue(field) && LengthValue(field) > 0
    ensures Relay([header] + field, Eof, dumper, rec).packets == []
    ensures Relay([header] + field, Eof, dumper, rec).exit == Stopped
  {
    var data := [header] + field;
    assert data[1..] == field;
    ReadUnfinishedField(field);
    assert data[1..][|field|..] == [];
  }

  lemma {:induction false} ZeroField(field: Bytes)
    requires forall i :: 0 <= i < |field| ==> field[i] == 0x80
    ensures AllContinue(field) && LengthValue(field) == 0
  {
    if |field| > 0 {
      ZeroField(field[1..]);
    }
  }

  /** A complete packet at the front of the stream is never lost to a read error: the loop
      either forwards it or stops because the dumper panicked on it. */
  lemma CompletePacketNotDropped(p: Packet, tail: Bytes, end: ReadError, dumper: Dumper)
    requires ValidPacket(p)
    ensures var r := ServerStep(PacketBytes(p) + tail, end, dumper);
            r.Forward? || (r.exit.Recovered? && dumper(PacketBytes(p)).Panic?)
  {
    StepOnPacket(p, tail, end, dumper);
  }

  /** Recording never changes what is forwarded: the packets written, the dumps and the way
      the loop ends are the same with no recorder, a working one, or one whose writes fail. */
  lemma {:induction false} RecorderDoesNotAffectForwarding(data: Bytes, end: ReadError, dumper: Dumper,
                                                           rec1: Option<Recorder>, rec2: Option<Recorder>)
    ensures Relay(data, end, dumper, rec1).packets == Relay(data, end, dumper, rec2).packets
    ensures Relay(data, end, dumper, rec1).dumps == Relay(data, end, dumper, rec2).dumps
    ensures Relay(data, end, dumper, rec1).exit == Relay(data, end, dumper, rec2).exit
    decreases |data|
  {
    match ServerStep(data, end, dumper)
    case Halt(_) =>
    case Forward(p, d, rest) =>
      RecorderDoesNotAffectForwarding(rest, end, dumper, rec1, rec2);
  }

  /** Dumping never changes what is forwarded: two dumpers that panic on the same buffers
      let the same packets through and end the loop the same way, whatever they report. */
  lemma {:induction false} DumperDoesNotAffectForwarding(data: Bytes, end: ReadError, dumper1: Dumper,
                                                         dumper2: Dumper, rec: Option<Recorder>)
    requires forall frame :: dumper1(frame).Ok? <==> dumper2(frame).Ok?
    ensures Relay(data, end, dumper1, rec).packets == Relay(data, end, dumper2, rec).packets
    ensures Relay(data, end, dumper1, rec).recorded == Relay(data, end, dumper2, rec).recorded
    ensures Relay(data, end, dumper1, rec).exit.Stopped? <==> Relay(data, end, dumper2, rec).exit.Stopped?
    decreases |data|
  {
    match ReadFrame(data, end)
    case NoFrame(_) =>
    case Frame(p, rest) =>
      if dumper1(PacketBytes(p)).Ok? {
        DumperDoesNotAffectForwarding(rest, end, dumper1, dumper2, rec);
      }
  }
}

=== FILE: session.dfy ===
/** One proxied session, as `serve` in server/server.go wires it: the client's bytes go to the
    broker through one relay loop ("SENT"), the broker's bytes come back through another
    ("RCVD"), both dumped by `dumpMqttPdu`. Only the broker-to-client loop is given the trace
    recorder. Opening the sockets and the trace file, and the goroutine that runs the
    reverse loop, are left out; the two loops read and write separate streams. */
module Session {
  import opened Outcomes
  import opened RemainingLength
  import opened Packets
  import opened MsgTypes
  import opened Connect
  import opened ConnectEncoding
  import opened Dump
  import opened ServerRelay

  /** What the two directions of a session did. */
  datatype SessionResult = SessionResult(sent: RelayResult, received: RelayResult)

  /** `serve`: the client-to-broker loop runs without a recorder, the broker-to-client loop
      with the session's recorder when tracing is on. */
  function Serve(fromClient: Source, fromBroker: Source, trace: Option<Recorder>): (s: SessionResult)
    ensures s.sent.recorded == [] && s.sent.recorderCloses == 0
    ensures s.received.recorderCloses == (if trace.Some? then 1 else 0)
    ensures s.received.recorded == (if trace.Some? && trace.value.writable then Frames(s.received.packets) else [])
    ensures Wire(s.sent.packets) <= fromClient.data && Wire(s.received.packets) <= fromBroker.data
    ensures !s.sent.exit.Crashed? && !s.received.exit.Crashed?
  {
    SessionResult(Relay(fromClient.data, fromClient.end, DumpMqttPdu, None),
                  Relay(fromBroker.data, fromBroker.end, DumpMqttPdu, trace))
  }

  /** Tracing only adds a record of the broker's packets: what either side receives is the
      same with or without it. */
  lemma TraceDoesNotAffectSession(fromClient: Source, fromBroker: Source, trace: Option<Recorder>)
    ensures Serve(fromClient, fromBroker, trace).sent == Serve(fromClient, fromBroker, None).sent
    ensures Serve(fromClient, fromBroker, trace).received.packets == Serve(fromClient, fromBroker, None).received.packets
    ensures Serve(fromClient, fromBroker, trace).received.exit == Serve(fromClient, fromBroker, None).received.exit
  {
    RecorderDoesNotAffectForwarding(fromBroker.data, fromBroker.end, DumpMqttPdu, trace, None);
  }

  /** The dumper of server/server.go decodes a CONNECT a client lays out by the standard back
      to the fields it was built from, so it does not panic on it. */
  lemma ConnectDumped(c: MqttConnect)
    requires Encodable(c)
    ensures DumpMqttPdu(PacketBytes(ConnectPacket(c))) == Ok(PduDump(CONNECT, "CONNECT", Some(c)))
  {
    ConnectRoundTrip(c);
    AfterHeader(ConnectPacket(c), []);
  }

  /** A packet the session lets through: well formed, and not one the dumper panics on. */
  predicate Passes(p: Packet)
  {
    ValidPacket(p) && DumpMqttPdu(PacketBytes(p)).Ok?
  }

  /** The round trip of a session: when both peers send well-formed packets the dumper
      accepts and each loop's stream ends in a clean EOF, each side receives exactly what the
      other sent, both loops stop normally, and the trace holds every packet of the broker. */
  lemma SessionRoundTrip(fromClient: seq<Packet>, fromBroker: seq<Packet>, trace: Option<Recorder>)
    requires forall i :: 0 <= i < |fromClient| ==> Passes(fromClient[i])
    requires forall i :: 0 <= i < |fromBroker| ==> Passes(fromBroker[i])
    ensures var s := Serve(Source(Wire(fromClient), Eof), Source(Wire(fromBroker), Eof), trace);
            && s.sent.packets == fromClient && s.sent.exit == Stopped
            && s.received.packets == fromBroker && s.received.exit == Stopped
            && (trace.Some? && trace.value.writable ==> s.received.recorded == Frames(fromBroker))
  {
    RelayRoundTrip(fromClient, DumpMqttPdu, None);
    RelayRoundTrip(fromBroker, DumpMqttPdu, trace);
  }

  /** A CONNECT whose stream ends cleanly inside an empty-valued length field is handed to the
      dumper, whose own skip loop then runs off the end of the buffer: the panic is
      recovered, and nothing is forwarded. */
  lemma CutShortConnect(field: Bytes, trace: Option<Recorder>)
    requires forall i :: 0 <= i < |field| ==> field[i] == 0x80
    ensures var r := Relay([0x10] + field, Eof, DumpMqttPdu, trace);
            r.packets == [] && r.exit == Recovered(BufferEmpty)
  {
    var frame := [0x10] + field;
    ZeroField(field);
    assert frame[1..] == field;
    assert DecodeMsgType(frame[0]) == CONNECT;
    assert DumpMqttPdu(frame) == Panic(BufferEmpty);
    EofInLengthField(0x10, field, DumpMqttPdu, trace);
  }

  /** A CONNECT with remaining length zero is a well-formed frame, but the dumper's decoder
      runs out of bytes on it: the loop ends there, and neither that packet nor anything the
      client sends after it reaches the broker. */
  lemma EmptyConnectStopsSession(rest: Bytes, end: ReadError)
    ensures var r := Relay([0x10, 0x00] + rest, end, DumpMqttPdu, None);
            r.packets == [] && r.exit == Recovered(BufferEmpty)
  {
    var p := Packet(0x10, [0x00], []);
    assert IsLengthField(p.lengthField) && LengthValue(p.lengthField) == 0;
    assert PacketBytes(p) == [0x10, 0x00];
    EmptyConnectPanics();
    StepOnPacket(p, rest, end, DumpMqttPdu);
  }

  /** The usual shutdown: the client's stream ends cleanly, `serve` then closes the client
      connection and, on return, the broker connection, so the broker loop's next read fails
      with an error other than EOF. Everything the broker sent before that is forwarded, and
      the broker loop ends as a recovered panic rather than a clean stop. */
  lemma ClientCloseEndsBrokerLoop(fromClient: seq<Packet>, fromBroker: seq<Packet>, trace: Option<Recorder>)
    requires forall i :: 0 <= i < |fromClient| ==> Passes(fromClient[i])
    requires forall i :: 0 <= i < |fromBroker| ==> Passes(fromBroker[i])
    ensures var s := Serve(Source(Wire(fromClient), Eof), Source(Wire(fromBroker), IoError), trace);
            && s.sent.packets == fromClient && s.sent.exit == Stopped
            && s.received.packets == fromBroker && s.received.exit == Recovered(ReadFailed(IoError))
  {
    RelayRoundTrip(fromClient, DumpMqttPdu, None);
    BrokerLoopOnClose(fromBroker, trace);
  }

  lemma BrokerLoopOnClose(ps: seq<Packet>, trace: Option<Recorder>)
    requires forall i :: 0 <= i < |ps| ==> Passes(ps[i])
    ensures Relay(Wire(ps), IoError, DumpMqttPdu, trace).packets == ps
    ensures Relay(Wire(ps), IoError, DumpMqttPdu, trace).exit == Recovered(ReadFailed(IoError))
  {
    AllForwardableEach(ps, DumpMqttPdu);
    RelayPackets(ps, [], IoError, DumpMqttPdu, trace);
    assert Wire(ps) + [] == Wire(ps);
  }
}
